=== FILE: README.md ===
# fastanime preview builder and cache planner, in Dafny

This project models the core of fastanime's fzf preview support (`fastanime/cli/utils/preview.py`):

- **The two preview builders.** `get_anime_preview` and `get_episode_preview` fill the shell
  preview template by substituting placeholders. The placeholders are the preview mode, the
  two cache directories, the path separator, the image renderer, four colour codes, the reset
  code and a file-name PREFIX.
- **The two cache workers.** `_cache_worker` and `_episode_cache_worker` are modelled as pure
  planners. Each returns the ordered list of tasks it would submit to its thread pool: image
  downloads into `<hash>.png` and info-text saves into `<hash>`.
- **The two info renderers.** `_populate_info_template` and `_populate_episode_info_template`
  fill the info templates with shell-escaped item data and use fixed placeholders for missing
  data ("N/A", "NOT_ON_LIST", "0", "No description available.").
- **`_get_cache_hash`.** The hex SHA-256 digest of a string. It is modelled as a function
  parameter (`Env.sha256Hex`), so it is deterministic but otherwise unknown.

## Module layout

| file | module | contents |
|---|---|---|
| `strings.dfy` | `Strings` | `p in s` and Python's `str.replace` (left-to-right, non-overlapping) |
| `substitution.dfy` | `Substitution` | the loop that replaces each `{KEY}` placeholder by its value, key after key |
| `decimal.dfy` | `Decimal` | `str(int)` and its inverse |
| `split.dfy` | `Split` | `str.split(",")` and `",".join` |
| `media.dfy` | `Media` | media items, configuration, the foreign helpers as function-valued fields |
| `render.dfy` | `Render` | the two info renderers |
| `planner.dfy` | `Planner` | the two cache workers |
| `preview.dfy` | `Preview` | the two preview builders |

## What substitution guarantees

The substitution loop replaces one key after another, so a placeholder can survive it. Two
lemmas exhibit this:

- `Substitution.ReassembledToken`: removing `{A}` from `{{A}A}` assembles a new `{A}`.
- `Substitution.ValueReexpanded`: a value that spells a later key's placeholder is itself
  expanded.

So "no value contains a placeholder, hence none remains" does not hold of the loop as written.
The model follows the code. The no-placeholder-remains lemmas assume three things:

- the template is `Paired`. A `{` directly followed by an upper-case letter or `_` opens a
  group, which must close with `}` before any other brace; this covers placeholders and shell
  text such as `${VAR}`. A `{` followed by any other character except `{` is plain text, as
  in a shell block `f() { ...; }`, `awk '{print $1}'` or fzf's field placeholder `{}`
  (`Substitution.FieldPlaceholderPaired`). A `}` outside a group is plain text too. What the
  grammar rules out is `{{`, a `{` at the very end, a brace inside a group, and a group left
  open;
- the keys are placeholder names (upper-case letters and `_`), which holds of every key here;
- the values this item or episode puts into the template are free of braces.

Under these assumptions each placeholder renders in place (`Substitution.SubstituteAt`).

The other places where the model stays close to the code:

- The date pattern for the next airing keeps the source's stray closing parenthesis.
- The episode DURATION is not shell-escaped; the item DURATION is.
- The info save of the item worker ignores whether the file already exists: the
  `... or True` condition always holds.
- The episode PREFIX prints an absent English title as `None`, as an f-string does.

## Model

The planner takes the info renderer as a parameter (`info`), so its facts hold for any
renderer. The preview builders instantiate it with `Render.RenderInfo` and
`Render.RenderEpisodeInfo`, and `Preview.AnimeInfoSaved` and `Preview.EpisodeInfoSaved` state
the result for those renderers.

| member | source | states |
|---|---|---|
| Strings.ReplaceAll | fastanime/cli/utils/preview.py:77-78 | a text without the placeholder's first character comes back unchanged; a same-length replacement keeps the length |
| Strings.ReplaceAbsent | fastanime/cli/utils/preview.py:77-78 | replacing a placeholder that does not occur leaves the script unchanged |
| Strings.ReplaceInserts | fastanime/cli/utils/preview.py:77-78 | if the placeholder occurs, its value appears in the result |
| Strings.ReplaceAppend | fastanime/cli/utils/preview.py:205-206 | replacement distributes over a concatenation that no occurrence straddles |
| Substitution.Substitute | fastanime/cli/utils/preview.py:165-166 | a template without `{` comes back unchanged by the replacement loop |
| Substitution.SubstituteAbsent | fastanime/cli/utils/preview.py:165-166 | a template mentioning none of the keys comes back unchanged |
| Substitution.SubstituteClears | fastanime/cli/utils/preview.py:281-282 | with a paired template, key names as keys and brace-free values, no key's placeholder remains |
| Substitution.SubstituteAppend | fastanime/cli/utils/preview.py:77-78 | substitution distributes over a concatenation whose left part is paired, when the keys are placeholder names and the values contain no braces |
| Substitution.SubstituteToken | fastanime/cli/utils/preview.py:205-206 | a lone placeholder renders to its own value under any mapping of key names to brace-free values |
| Substitution.SubstituteAt | fastanime/cli/utils/preview.py:281-282 | a placeholder after paired text renders in place as its value; the surrounding text renders on its own |
| Substitution.ReassembledToken | fastanime/cli/utils/preview.py:165-166 | on an unpaired template, sequential replacement can assemble a new placeholder |
| Substitution.ValueReexpanded | fastanime/cli/utils/preview.py:165-166 | a value that spells a later key's placeholder is expanded again |
| Decimal.IntToString | fastanime/cli/utils/preview.py:121 | `str(n)` gives decimal digits with no leading zero, after a minus sign when negative |
| Decimal.IntToStringRoundTrip | fastanime/cli/utils/preview.py:264 | parsing `str(n)` gives `n` back, so distinct episode counts print distinctly |
| Split.Split | fastanime/cli/utils/preview.py:50-51 | splitting gives at least one part and no part contains the separator |
| Split.SplitLength | fastanime/cli/utils/preview.py:177-178 | the number of parts is the number of separators plus one |
| Split.JoinSplit | fastanime/cli/utils/preview.py:50 | joining the parts with the separator gives the colour setting back |
| Split.SplitJoin | fastanime/cli/utils/preview.py:51 | splitting a join of separator-free parts gives the parts back |
| Render.NextEpisodeText | fastanime/cli/utils/preview.py:116-120 | "N/A" exactly when nothing is scheduled; otherwise "Episode <n> on " then the airing date formatted with the pattern `%A, %d %B %Y at %X)` |
| Render.UserStatusText | fastanime/cli/utils/preview.py:148-152 | the list status when the entry and its status exist, "NOT_ON_LIST" otherwise |
| Render.UserProgressText | fastanime/cli/utils/preview.py:153-157 | "0" exactly when the item is not on the list; otherwise "Episode " and the progress as `str` prints it |
| Render.UserProgressRoundTrip | fastanime/cli/utils/preview.py:153-157 | the progress number reads back from the USER_PROGRESS text; a missing progress reads "None" |
| Render.StudioNames | fastanime/cli/utils/preview.py:140-144 | exactly the studio names that are present and non-empty are kept |
| Render.StudioNamesSingle | fastanime/cli/utils/preview.py:142 | one studio contributes its name exactly when the name is present and non-empty |
| Render.StudioNamesAppend | fastanime/cli/utils/preview.py:142 | the filter keeps order and duplicates: names of a concatenation are the concatenated names |
| Render.InfoTexts | fastanime/cli/utils/preview.py:105-163 | TITLE falls back to romaji, NEXT_EPISODE is "N/A" iff nothing is scheduled, USER_STATUS and USER_PROGRESS fall back off the list, SYNOPSIS falls back to the default description |
| Render.InfoValues | fastanime/cli/utils/preview.py:110-163 | every item value is the shell-escaping helper applied to the text at the same position |
| Render.InfoFieldsTitle | fastanime/cli/utils/preview.py:110-115 | TITLE, STATUS and FORMAT show the English-else-romaji title, the status and the format |
| Render.InfoFieldsAiring | fastanime/cli/utils/preview.py:116-124 | NEXT_EPISODE, EPISODES and DURATION show the airing text, the episode count as `str` prints it, and the formatted duration |
| Render.InfoFieldsScores | fastanime/cli/utils/preview.py:125-133 | SCORE, FAVOURITES and POPULARITY show the star score and the two counts with commas |
| Render.InfoFieldsLists | fastanime/cli/utils/preview.py:134-144 | GENRES, TAGS and STUDIOS show the comma lists of genres, tag names and present studio names |
| Render.InfoFieldsUser | fastanime/cli/utils/preview.py:145-157 | SYNONYMNS, USER_STATUS and USER_PROGRESS show the synonym list and the two list-entry texts |
| Render.InfoFieldsDates | fastanime/cli/utils/preview.py:105-162 | START_DATE, END_DATE and SYNOPSIS show the two dates in the default format and the cleaned description or default text |
| Render.EpisodeInfoValues | fastanime/cli/utils/preview.py:255-279 | TITLE is the escaped title; DURATION is the raw duration text, every other value comes out of the shell-escaping helper, and the three fallbacks are escaped |
| Render.EpisodeFields | fastanime/cli/utils/preview.py:255-279 | each of the 9 episode-info names with its value: the escaped title, airing text, status, episode count, list-entry texts and dates, and the raw duration |
| Render.EpisodeTitleShown | fastanime/cli/utils/preview.py:256 | the episode-info TITLE placeholder renders in place as the escaped title |
| Render.RenderInfo | fastanime/cli/utils/preview.py:100-168 | an item-info template without `{` is returned unchanged |
| Render.RenderEpisodeInfo | fastanime/cli/utils/preview.py:247-284 | an episode-info template without `{` is returned unchanged |
| Render.InfoKeysWellFormed | fastanime/cli/utils/preview.py:110-163 | the 18 item-info keys are placeholder names and pairwise distinct |
| Render.EpisodeKeysWellFormed | fastanime/cli/utils/preview.py:255-279 | the 9 episode-info keys are placeholder names and pairwise distinct |
| Render.RenderInfoAt | fastanime/cli/utils/preview.py:110-166 | each item-info placeholder renders in place as the shell-escaped value of its field |
| Render.RenderEpisodeInfoAt | fastanime/cli/utils/preview.py:255-282 | each episode-info placeholder renders in place as its value |
| Render.TitleAndSynopsisFallback | fastanime/cli/utils/preview.py:105-113 | TITLE is the English title when non-empty, else romaji; a missing description shows the default text |
| Render.NextEpisodeFallback | fastanime/cli/utils/preview.py:257-261 | with nothing scheduled both templates show the escaped "N/A" |
| Render.InfoNextEpisodeFallback | fastanime/cli/utils/preview.py:116-120 | with nothing scheduled the item info shows the escaped "N/A" |
| Render.EpisodeNextEpisodeFallback | fastanime/cli/utils/preview.py:257-261 | with nothing scheduled the episode info shows the escaped "N/A" |
| Render.UserListFallback | fastanime/cli/utils/preview.py:148-157 | an item off the list shows "NOT_ON_LIST" and progress "0" in the item info |
| Render.EpisodeUserListFallback | fastanime/cli/utils/preview.py:265-274 | the same fallbacks in the episode info |
| Render.DurationEscaping | fastanime/cli/utils/preview.py:262 | the episode info shows the duration unescaped, while the item info escapes it |
| Render.EpisodeDurationRaw | fastanime/cli/utils/preview.py:262 | the episode info shows the formatted duration without escaping |
| Render.InfoDurationEscaped | fastanime/cli/utils/preview.py:122-124 | the item info shows the formatted duration shell-escaped |
| Render.RenderInfoComplete | fastanime/cli/utils/preview.py:100-168 | a paired item-info template keeps none of its 18 placeholders |
| Render.RenderEpisodeInfoComplete | fastanime/cli/utils/preview.py:247-284 | a paired episode-info template keeps none of its 9 placeholders |
| Render.RenderInfoUntouched | fastanime/cli/utils/preview.py:165-166 | a template with no info placeholder is returned unchanged |
| Planner.SavesMembers | fastanime/cli/utils/preview.py:97 | the saves of a plan are exactly its info-save tasks |
| Planner.FetchesMembers | fastanime/cli/utils/preview.py:90-92 | the downloads of a plan are exactly its image-download tasks |
| Planner.ItemTasks | fastanime/cli/utils/preview.py:87-97 | one item submits at most two tasks |
| Planner.ItemTaskContents | fastanime/cli/utils/preview.py:87-97 | one item submits its cover download iff the mode caches images and `<hash(title)>.png` is missing, its info save iff the mode caches text, both under hash(title), the download first |
| Planner.ItemFetchHead | fastanime/cli/utils/preview.py:88-92 | the only download an item can submit is its large cover under hash(title), and only when it is not cached |
| Planner.PlanItems | fastanime/cli/utils/preview.py:83-97 | at most two tasks per item/title pair; nothing in mode "none"; downloads only in image modes and only for uncached files; saves only in text modes |
| Planner.ItemFetchIff | fastanime/cli/utils/preview.py:88-92 | a cover download is planned iff some processed item has a cover, its `<hash(title)>.png` is not cached and the mode caches images |
| Planner.ItemSavesExact | fastanime/cli/utils/preview.py:93-97 | in text modes exactly one save per processed pair, the k-th holding item k's rendered info under hash(title k); none otherwise |
| Planner.ItemSavesCount | fastanime/cli/utils/preview.py:93-97 | the number of saves is the number of processed pairs in text modes and zero otherwise |
| Planner.ItemSavesContent | fastanime/cli/utils/preview.py:95-97 | the k-th save holds item k's rendered info under hash(title k) |
| Planner.ItemKeys | fastanime/cli/utils/preview.py:86-87 | every task is keyed by the hash of one of the processed titles |
| Planner.FullModeCounts | fastanime/cli/utils/preview.py:86-97 | in "full" mode with an empty cache, N items with M covers give M downloads and N saves |
| Planner.PlanItemsAppend | fastanime/cli/utils/preview.py:86 | items are planned one after another in order |
| Planner.PlanItemsTruncates | fastanime/cli/utils/preview.py:86 | items or titles beyond the shorter list are ignored, as with `zip` |
| Planner.ReplanKeepsSaves | fastanime/cli/utils/preview.py:95 | info saves do not depend on the cache contents |
| Planner.FetchesShrink | fastanime/cli/utils/preview.py:89 | a cache that has gained files never causes a new download |
| Planner.ReplanSkipsImages | fastanime/cli/utils/preview.py:89-92 | once the planned downloads are cached, replanning downloads nothing |
| Planner.NoFetches | fastanime/cli/utils/preview.py:90-92 | a plan with no download task has no downloads |
| Planner.EpisodePrefix | fastanime/cli/utils/preview.py:219-221 | the identity prefix is the English title then "_Episode_", or "None_Episode_" when the title is absent |
| Planner.EpisodeIdentity | fastanime/cli/utils/preview.py:219-221 | the identity is the prefix followed by the episode string, which can be read back from it |
| Planner.EpisodeIdentityInjective | fastanime/cli/utils/preview.py:219-221 | within one item, two episode strings have the same identity iff they are equal |
| Planner.EpisodeTitle | fastanime/cli/utils/preview.py:224-232 | the streaming episode's non-empty title, else "Episode <ep>"; never empty |
| Planner.EpisodeThumbnail | fastanime/cli/utils/preview.py:225-236 | the episode's own truthy thumbnail wins; otherwise the item's large cover when there is one; with no cover, the episode's own thumbnail as it is |
| Planner.EpisodeTasks | fastanime/cli/utils/preview.py:238-244 | one save of the episode info under hash(identity), preceded by a download iff there is a thumbnail |
| Planner.PlanEpisodes | fastanime/cli/utils/preview.py:217-244 | between one and two tasks per episode |
| Planner.EpisodeSavesExact | fastanime/cli/utils/preview.py:242-244 | exactly one save per episode, the k-th for episode k, with its rendered info and its identity's hash |
| Planner.EpisodeTaskSaves | fastanime/cli/utils/preview.py:242-244 | one episode contributes exactly its info save |
| Planner.EpisodeKeys | fastanime/cli/utils/preview.py:219-221 | every episode task is keyed by hash(prefix + one of the episode strings) |
| Planner.PlanEpisodesAppend | fastanime/cli/utils/preview.py:217-244 | episodes are planned one after another in order, downloads and saves included |
| Planner.EpisodeFetchIff | fastanime/cli/utils/preview.py:234-240 | a thumbnail download is planned iff some episode has a truthy thumbnail after the cover fallback; it is keyed by that episode's identity hash |
| Preview.PathSep | fastanime/cli/utils/preview.py:59 | a one-character separator: a backslash exactly on "win32", a slash otherwise |
| Preview.PreviewValues | fastanime/cli/utils/preview.py:62-75 | each of the 11 names is paired with its value: PREVIEW_MODE and IMAGE_RENDERER the configured settings, IMAGE_CACHE_PATH and INFO_CACHE_PATH the cache directories, PATH_SEP the platform separator, C_TITLE, C_KEY and C_VALUE the header colour parts in bold, C_RULE the separator colour parts in bold, RESET the reset code, PREFIX the given prefix |
| Preview.AnimePreview | fastanime/cli/utils/preview.py:43-80 | a script without `{` comes back unchanged; at most two tasks per processed pair; none in mode "none" |
| Preview.EpisodePreview | fastanime/cli/utils/preview.py:171-208 | a script without `{` comes back unchanged; between one and two tasks per episode |
| Preview.PreviewAt | fastanime/cli/utils/preview.py:62-78 | each preview placeholder renders in place as its configured value |
| Preview.PathSeparatorRendered | fastanime/cli/utils/preview.py:59 | PATH_SEP renders as a backslash on "win32" and a slash elsewhere |
| Preview.CachePathsRendered | fastanime/cli/utils/preview.py:64-65 | IMAGE_CACHE_PATH and INFO_CACHE_PATH render as the image and info cache directories |
| Preview.SettingsRendered | fastanime/cli/utils/preview.py:63-73 | PREVIEW_MODE, IMAGE_RENDERER and RESET render as the preview mode, the image renderer and the reset code |
| Preview.EpisodeTitleRendered | fastanime/cli/utils/preview.py:224-256 | the saved episode info shows the escaped episode title, "Episode <ep>" when no streaming episode with a title matches |
| Preview.ColoursRendered | fastanime/cli/utils/preview.py:69-72 | C_TITLE, C_KEY and C_VALUE render as the bold header colour, C_RULE as the bold separator colour |
| Preview.AnimePrefixRendered | fastanime/cli/utils/preview.py:74-78 | the script the anime builder returns shows PREFIX as nothing |
| Preview.EpisodePrefixRendered | fastanime/cli/utils/preview.py:202-206 | the script the episode builder returns shows PREFIX as the English title followed by "_Episode_" |
| Preview.ColourValues | fastanime/cli/utils/preview.py:50-72 | the colour helper receives exactly the comma-separated parts; C_TITLE, C_KEY and C_VALUE get the header colour, C_RULE the separator colour |
| Preview.PreviewComplete | fastanime/cli/utils/preview.py:171-208 | with a paired template and brace-free settings, neither builder leaves a placeholder |
| Preview.AnimeKeysFollowPrefix | fastanime/cli/utils/preview.py:74-87 | the anime script shows PREFIX as nothing, and every anime task is keyed by the hash of a processed title alone |
| Preview.AnimeImagesFetched | fastanime/cli/utils/preview.py:86-92 | the anime builder's worker downloads a cover iff some processed item has one, the mode caches images and `<hash(title)>.png` is not cached |
| Preview.EpisodeKeysFollowPrefix | fastanime/cli/utils/preview.py:202-221 | the episode script shows PREFIX as the episode prefix, and every episode task is keyed by hash(that prefix + episode) |
| Preview.EpisodeImagesFetched | fastanime/cli/utils/preview.py:234-240 | the episode builder's worker downloads a thumbnail iff some episode has a truthy one after the cover fallback, under that episode's identity hash |
| Preview.AnimeInfoSaved | fastanime/cli/utils/preview.py:93-97 | in text modes the anime worker saves item k's rendered item info under hash(title k), once per processed pair |
| Preview.EpisodeInfoSaved | fastanime/cli/utils/preview.py:242-244 | the episode worker saves episode k's rendered episode info under hash(identity k), once per episode |

## Left out

- Threads and the executor are left out. The workers are modelled as the ordered list of tasks they submit. Their concurrency, completion and failures are not modelled.
- `_save_image_from_url`, `_save_info_text` and AtomicWriter perform network and file I/O, so they appear only as the tasks `FetchImage` and `SaveInfo`.
- The cache-directory `mkdir` calls, the template file reads at import time and the `os.environ["SHELL"]` assignment are I/O or process state. The templates and directories are parameters.
- Media.CacheHash has no contract: `_get_cache_hash` is SHA-256 over UTF-8, which is foreign code, so the digest is the function parameter `Env.sha256Hex` and nothing is promised about it beyond being a function of its input.
- `formatter.*` and the `ansi` helpers are foreign code, so they are function-valued parameters.
- `cached` is a snapshot: file existence is read through a parameter taken when planning starts.
- `EPISODE_PATTERN` is not used by the modelled functions.
- `fastanime/cli/utils/logging.py` is not part of this model: logging has no effect on the results.
- Media enums are kept as their `.value` strings, and tags as their names.
- The romaji title is modelled as always present.
- `_populate_episode_info_template` reads nothing from its config argument, so `Render.RenderEpisodeInfo` takes none.
- Strings.ReplaceAll requires a non-empty pattern. Every pattern used is a `{KEY}` placeholder, so the empty-pattern behaviour of `str.replace` is not modelled.
- Substitution.SubstituteClears is stated only for paired templates, keys that are placeholder names and brace-free values, because without these the property is false (see `Substitution.ReassembledToken`).
- Substitution.SubstituteAppend is stated only when the keys are placeholder names and the values contain no braces: with the values `{` for A and `x` for B, `{A}` followed by `B}` renders as `x`, while the parts render as `{` and `B}`.
- Substitution.SubstituteAt is stated only when the text before the placeholder is paired, the keys are placeholder names and the values are brace-free.
- Render.RenderInfoAt is stated only when the item's 18 values contain no brace (`InfoValuesPlain`).
- Render.RenderEpisodeInfoAt is stated only when the episode's 9 values contain no brace (`EpisodeValuesPlain`), including the unescaped duration.
- Render.RenderInfoComplete is stated only for paired templates and an item whose values contain no brace.
- Render.RenderEpisodeInfoComplete is stated only for paired templates and an episode whose values contain no brace.
- Preview.PreviewComplete is stated only for a paired template and brace-free settings, colour codes and English title.
- Preview.PreviewAt is stated only for a paired prefix of the template and brace-free settings.
- Render.RenderInfo and Render.RenderEpisodeInfo, and the preview builders, promise in-place rendering only for templates inside the `Paired` grammar; for other templates only the examples `Substitution.ReassembledToken` and `Substitution.ValueReexpanded` are stated.
- Planner.ItemTasks states only the task count in its own contract; what the tasks are is stated by `Planner.ItemTaskContents`.

=== FILE: decimal.dfy ===
/** Python's `str(n)` for integers, as used by the f-strings `f"Episode {progress}"` and
    `str(media_item.episodes)`, with a parser as its inverse. */
module Decimal {

  predicate IsDigit(c: char) {
    '0' <= c <= '9'
  }

  predicate AllDigits(s: string) {
    forall i :: 0 <= i < |s| ==> IsDigit(s[i])
  }

  function DigitChar(d: nat): (c: char)
    requires d < 10
    ensures IsDigit(c)
  {
    ('0' as int + d) as char
  }

  function DigitValue(c: char): (d: nat)
    requires IsDigit(c)
    ensures d < 10
  {
    c as int - '0' as int
  }

  /** Decimal digits of a natural number, most significant first, without leading zeros. */
  function NatToString(n: nat): (s: string)
    ensures |s| >= 1 && AllDigits(s)
    ensures s[0] == '0' ==> s == "0"
    decreases n
  {
    if n < 10 then [DigitChar(n)] else NatToString(n / 10) + [DigitChar(n % 10)]
  }

  /** Python's `str(i)`: a minus sign before the digits of a negative number. */
  function IntToString(i: int): (s: string)
    ensures |s| >= 1
    ensures i >= 0 ==> AllDigits(s)
    ensures i >= 0 && s[0] == '0' ==> s == "0"
    ensures i < 0 ==> s[0] == '-' && |s| >= 2 && AllDigits(s[1..]) && s[1] != '0'
  {
    if i < 0 then "-" + NatToString(-i) else NatToString(i)
  }

  /** The value of a string of decimal digits. */
  function ParseNat(s: string): nat
    requires AllDigits(s)
    decreases |s|
  {
    if |s| == 0 then 0 else 10 * ParseNat(s[..|s| - 1]) + DigitValue(s[|s| - 1])
  }

  /** Reads back what `IntToString` writes. */
  function ParseInt(s: string): int
    requires |s| >= 1
    requires s[0] == '-' ==> AllDigits(s[1..])
    requires s[0] != '-' ==> AllDigits(s)
  {
    if s[0] == '-' then -(ParseNat(s[1..]) as int) else ParseNat(s)
  }

  lemma {:induction false} ParseNatToString(n: nat)
    ensures ParseNat(NatToString(n)) == n
    decreases n
  {
    if n >= 10 {
      var s := NatToString(n);
      assert s[..|s| - 1] == NatToString(n / 10);
      ParseNatToString(n / 10);
    }
  }

  /** `str(i)` is injective: parsing it gives `i` back. */
  lemma IntToStringRoundTrip(i: int)
    ensures ParseInt(IntToString(i)) == i
  {
    if i < 0 {
      assert IntToString(i)[1..] == NatToString(-i);
      ParseNatToString(-i);
    } else {
      ParseNatToString(i);
    }
  }
}

=== FILE: media.dfy ===
/** The data the preview code reads: media items from the catalog, the user's configuration,
    and the helpers it calls but does not define (formatter, ansi, the digest, the templates). */
module Media {
  import Decimal

  datatype Option<T> = None | Some(value: T)

  /** Python truthiness of an optional string: present and non-empty. */
  predicate Truthy(o: Option<string>) {
    o.Some? && o.value != ""
  }

  /** Python's `a or b` for an optional string `a` and a string `b`. */
  function OrElse(a: Option<string>, b: string): string {
    if Truthy(a) then a.value else b
  }

  /** How an f-string renders an optional string: `None` prints as "None". */
  function ShowText(o: Option<string>): string {
    match o
    case None => "None"
    case Some(s) => s
  }

  /** How an f-string renders an optional integer: `None` prints as "None". */
  function ShowInt(o: Option<int>): string {
    match o
    case None => "None"
    case Some(n) => Decimal.IntToString(n)
  }

  /** A point in time as handed to the date formatter. */
  type Timestamp = int

  datatype MediaTitle = MediaTitle(english: Option<string>, romaji: string)

  datatype CoverImage = CoverImage(large: string)

  datatype AiringSchedule = AiringSchedule(episode: int, airingAt: Timestamp)

  datatype Studio = Studio(name: Option<string>)

  /** The user's list entry: the list status (an enum value, kept as its string) and progress. */
  datatype UserListStatus = UserListStatus(status: Option<string>, progress: Option<int>)

  /** A streaming episode of a media item, keyed by its episode string. */
  datatype StreamingEpisode = StreamingEpisode(title: Option<string>, thumbnail: Option<string>)

  /** A media item as supplied by the catalog. Enum fields are kept as their `.value` strings. */
  datatype MediaItem = MediaItem(
    title: MediaTitle,
    status: string,
    format: string,
    coverImage: Option<CoverImage>,
    nextAiring: Option<AiringSchedule>,
    episodes: Option<int>,
    duration: Option<int>,
    averageScore: Option<int>,
    favourites: Option<int>,
    popularity: Option<int>,
    genres: seq<string>,
    tags: seq<string>,
    studios: seq<Studio>,
    synonymns: seq<string>,
    description: Option<string>,
    userStatus: Option<UserListStatus>,
    startDate: Option<Timestamp>,
    endDate: Option<Timestamp>,
    streamingEpisodes: map<string, StreamingEpisode>)

  /** The configuration fields the preview code reads. `preview` is one of "full", "image",
      "text" or "none"; the colours are comma-separated lists. */
  datatype Config = Config(
    preview: string,
    imageRenderer: string,
    headerColor: string,
    separatorColor: string)

  /** The `formatter` helpers. Dates take an optional strftime pattern; `None` is the default. */
  datatype Formatter = Formatter(
    shellSafe: string -> string,
    cleanHtml: string -> string,
    formatDate: (Option<Timestamp>, Option<string>) -> string,
    formatMediaDuration: Option<int> -> string,
    formatScoreStarsFull: Option<int> -> string,
    formatNumberWithCommas: Option<int> -> string,
    formatListWithCommas: seq<string> -> string)

  /** The `ansi` helpers: `get_true_fg(colours, bold)` and the `RESET` code. */
  datatype Ansi = Ansi(trueFg: (seq<string>, bool) -> string, reset: string)

  /** The three template files read when the module is loaded. */
  datatype Templates = Templates(preview: string, info: string, episodeInfo: string)

  /** Everything outside the shown code: the platform name, the two cache directories, the
      templates, the helpers, and the hex SHA-256 digest of a string's UTF-8 bytes. */
  datatype Env = Env(
    platform: string,
    imagesCacheDir: string,
    infoCacheDir: string,
    templates: Templates,
    fmt: Formatter,
    ansi: Ansi,
    sha256Hex: string -> string)

  /** `_get_cache_hash`: the cache file name derived from an identifying string. */
  function CacheHash(env: Env, text: string): string {
    env.sha256Hex(text)
  }
}

=== FILE: planner.dfy ===
/** The cache workers as task planners: the image downloads and info saves that
    `_cache_worker` and `_episode_cache_worker` submit to their thread pools, in submission order.
    The text of an info save comes from the renderer `info` the planner is given: the item info
    renderer for an item, the episode info renderer (applied to the episode title) for an
    episode. The preview builders pass the renderers of module Render; every fact here holds
    for any renderer. */
module Planner {
  import opened Media

  /** A submitted task: download `url` to `<key>.png` in the image cache, or write `text` to
      `<key>` in the info cache. */
  datatype Task = FetchImage(url: string, key: string) | SaveInfo(text: string, key: string)

  /** Preview modes that populate the image cache. */
  predicate CachesImages(mode: string) {
    mode == "full" || mode == "image"
  }

  /** Preview modes that populate the info cache. */
  predicate CachesText(mode: string) {
    mode == "full" || mode == "text"
  }

  function Min(a: nat, b: nat): nat {
    if a <= b then a else b
  }

  /** The info-save tasks of a plan, in order. */
  function Saves(plan: seq<Task>): (saves: seq<Task>)
    ensures |saves| <= |plan|
    decreases |plan|
  {
    if |plan| == 0 then []
    else if plan[0].SaveInfo? then [plan[0]] + Saves(plan[1..])
    else Saves(plan[1..])
  }

  /** The image-download tasks of a plan, in order. */
  function Fetches(plan: seq<Task>): (fetches: seq<Task>)
    ensures |fetches| <= |plan|
    decreases |plan|
  {
    if |plan| == 0 then []
    else if plan[0].FetchImage? then [plan[0]] + Fetches(plan[1..])
    else Fetches(plan[1..])
  }

  /** The saves of a plan are exactly its info-save tasks. */
  lemma {:induction false} SavesMembers(plan: seq<Task>)
    ensures forall t :: t in Saves(plan) <==> t in plan && t.SaveInfo?
    decreases |plan|
  {
    if |plan| > 0 {
      SavesMembers(plan[1..]);
      assert plan == [plan[0]] + plan[1..];
    }
  }

  /** The downloads of a plan are exactly its image-download tasks. */
  lemma {:induction false} FetchesMembers(plan: seq<Task>)
    ensures forall t :: t in Fetches(plan) <==> t in plan && t.FetchImage?
    decreases |plan|
  {
    if |plan| > 0 {
      FetchesMembers(plan[1..]);
      assert plan == [plan[0]] + plan[1..];
    }
  }

  lemma {:induction false} SavesAppend(p: seq<Task>, q: seq<Task>)
    ensures Saves(p + q) == Saves(p) + Saves(q)
    decreases |p|
  {
    if |p| > 0 {
      assert (p + q)[0] == p[0];
      assert (p + q)[1..] == p[1..] + q;
      SavesAppend(p[1..], q);
    } else {
      assert p + q == q;
    }
  }

  lemma {:induction false} FetchesAppend(p: seq<Task>, q: seq<Task>)
    ensures Fetches(p + q) == Fetches(p) + Fetches(q)
    decreases |p|
  {
    if |p| > 0 {
      assert (p + q)[0] == p[0];
      assert (p + q)[1..] == p[1..] + q;
      FetchesAppend(p[1..], q);
    } else {
      assert p + q == q;
    }
  }

  // ---------------------------------------------------------------------------------------
  // `_cache_worker`
  // ---------------------------------------------------------------------------------------

  /** What the worker submits for one item and its title: a cover download when the mode
      caches images, the item has a cover and `<hash>.png` is not cached yet; then an info
      save whenever the mode caches text, whether or not the info file exists. */
  function ItemTasks(item: MediaItem, title: string, cfg: Config, env: Env, info: MediaItem -> string, cached: string -> bool): (tasks: seq<Task>)
    ensures |tasks| <= 2
  {
    var key := CacheHash(env, title);
    (if CachesImages(cfg.preview) && item.coverImage.Some? && !cached(key + ".png")
     then [FetchImage(item.coverImage.value.large, key)] else [])
    + (if CachesText(cfg.preview)
       then [SaveInfo(info(item), key)] else [])
  }

  /** The tasks of one item, by content: the item's large cover under the hash of its title
      exactly when the mode caches images, the item has a cover and `<hash>.png` is missing;
      the rendered info under the same hash exactly when the mode caches text; and the
      download, when there is one, comes first. */
  lemma ItemTaskContents(item: MediaItem, title: string, cfg: Config, env: Env, info: MediaItem -> string, cached: string -> bool)
    ensures var tasks := ItemTasks(item, title, cfg, env, info, cached);
      && |tasks|
         == (if CachesImages(cfg.preview) && item.coverImage.Some? && !cached(CacheHash(env, title) + ".png") then 1 else 0)
            + (if CachesText(cfg.preview) then 1 else 0)
      && (item.coverImage.Some? ==>
            (FetchImage(item.coverImage.value.large, CacheHash(env, title)) in tasks
             <==> CachesImages(cfg.preview) && !cached(CacheHash(env, title) + ".png")))
      && (SaveInfo(info(item), CacheHash(env, title)) in tasks
          <==> CachesText(cfg.preview))
      && (forall t :: t in tasks ==> t.key == CacheHash(env, title))
      && (|tasks| == 2 ==> tasks[0].FetchImage? && tasks[1].SaveInfo?)
  {
  }

  /** `_cache_worker`: items and titles taken pairwise, up to the shorter list. `cached` tells
      which file names already exist in the image cache. */
  function PlanItems(items: seq<MediaItem>, titles: seq<string>, cfg: Config, env: Env, info: MediaItem -> string, cached: string -> bool): (plan: seq<Task>)
    ensures |plan| <= 2 * Min(|items|, |titles|)
    ensures !CachesImages(cfg.preview) && !CachesText(cfg.preview) ==> plan == []
    ensures forall t :: t in plan && t.FetchImage? ==> CachesImages(cfg.preview) && !cached(t.key + ".png")
    ensures forall t :: t in plan && t.SaveInfo? ==> CachesText(cfg.preview)
    decreases |items|
  {
    if |items| == 0 || |titles| == 0 then []
    else ItemTasks(items[0], titles[0], cfg, env, info, cached) + PlanItems(items[1..], titles[1..], cfg, env, info, cached)
  }

  /** A cover download is planned exactly for a processed item that has a cover image whose
      file `<hash(title)>.png` is not cached, in an image-caching mode; it fetches that item's
      large cover into the hash of that item's own title. */
  lemma {:induction false} ItemFetchIff(items: seq<MediaItem>, titles: seq<string>, cfg: Config, env: Env, info: MediaItem -> string, cached: string -> bool, url: string, key: string)
    ensures FetchImage(url, key) in PlanItems(items, titles, cfg, env, info, cached)
        <==> exists i :: 0 <= i < Min(|items|, |titles|)
              && CachesImages(cfg.preview)
              && items[i].coverImage.Some?
              && url == items[i].coverImage.value.large
              && key == CacheHash(env, titles[i])
              && !cached(key + ".png")
    decreases |items|
  {
    if |items| > 0 && |titles| > 0 {
      ItemFetchIff(items[1..], titles[1..], cfg, env, info, cached, url, key);
      ItemFetchHead(items[0], titles[0], cfg, env, info, cached, url, key);
      var head := ItemTasks(items[0], titles[0], cfg, env, info, cached);
      var rest := PlanItems(items[1..], titles[1..], cfg, env, info, cached);
      var n := Min(|items|, |titles|);
      if FetchImage(url, key) in head + rest && FetchImage(url, key) !in head {
        var j :| 0 <= j < n - 1
          && CachesImages(cfg.preview)
          && items[1..][j].coverImage.Some?
          && url == items[1..][j].coverImage.value.large
          && key == CacheHash(env, titles[1..][j])
          && !cached(key + ".png");
        assert items[1..][j] == items[j + 1] && titles[1..][j] == titles[j + 1];
      }
      if exists i :: 0 < i < n
          && CachesImages(cfg.preview)
          && items[i].coverImage.Some?
          && url == items[i].coverImage.value.large
          && key == CacheHash(env, titles[i])
          && !cached(key + ".png") {
        var i :| 0 < i < n
          && CachesImages(cfg.preview)
          && items[i].coverImage.Some?
          && url == items[i].coverImage.value.large
          && key == CacheHash(env, titles[i])
          && !cached(key + ".png");
        assert items[1..][i - 1] == items[i] && titles[1..][i - 1] == titles[i];
      }
    }
  }

  /** The one download an item can contribute: its large cover under the hash of its title. */
  lemma ItemFetchHead(item: MediaItem, title: string, cfg: Config, env: Env, info: MediaItem -> string, cached: string -> bool, url: string, key: string)
    ensures FetchImage(url, key) in ItemTasks(item, title, cfg, env, info, cached)
        <==> CachesImages(cfg.preview) && item.coverImage.Some? && url == item.coverImage.value.large
             && key == CacheHash(env, title) && !cached(key + ".png")
  {
  }

  lemma ItemSaves(item: MediaItem, title: string, cfg: Config, env: Env, info: MediaItem -> string, cached: string -> bool)
    ensures Saves(ItemTasks(item, title, cfg, env, info, cached))
         == if CachesText(cfg.preview)
            then [SaveInfo(info(item), CacheHash(env, title))] else []
  {
    var key := CacheHash(env, title);
    var img := if CachesImages(cfg.preview) && item.coverImage.Some? && !cached(key + ".png")
               then [FetchImage(item.coverImage.value.large, key)] else [];
    var txt := if CachesText(cfg.preview)
               then [SaveInfo(info(item), key)] else [];
    assert ItemTasks(item, title, cfg, env, info, cached) == img + txt;
    SavesAppend(img, txt);
  }

  /** An info save is planned exactly once per processed item in a text-caching mode, and the
      k-th save holds the k-th item's rendered info under the hash of the k-th title. Text is
      never skipped because its file already exists. */
  lemma {:induction false} ItemSavesExact(items: seq<MediaItem>, titles: seq<string>, cfg: Config, env: Env, info: MediaItem -> string, cached: string -> bool)
    ensures CachesText(cfg.preview) ==> |Saves(PlanItems(items, titles, cfg, env, info, cached))| == Min(|items|, |titles|)
    ensures !CachesText(cfg.preview) ==> Saves(PlanItems(items, titles, cfg, env, info, cached)) == []
    ensures forall k :: 0 <= k < |Saves(PlanItems(items, titles, cfg, env, info, cached))| ==>
      Saves(PlanItems(items, titles, cfg, env, info, cached))[k]
      == SaveInfo(info(items[k]), CacheHash(env, titles[k]))
  {
    ItemSavesCount(items, titles, cfg, env, info, cached);
    ItemSavesContent(items, titles, cfg, env, info, cached);
  }

  /** One save per processed item in a text-caching mode, none otherwise. */
  lemma {:induction false} ItemSavesCount(items: seq<MediaItem>, titles: seq<string>, cfg: Config, env: Env, info: MediaItem -> string, cached: string -> bool)
    ensures |Saves(PlanItems(items, titles, cfg, env, info, cached))|
         == if CachesText(cfg.preview) then Min(|items|, |titles|) else 0
    decreases |items|
  {
    if |items| > 0 && |titles| > 0 {
      ItemSavesCount(items[1..], titles[1..], cfg, env, info, cached);
      ItemSavesStep(items, titles, cfg, env, info, cached);
      ItemSaves(items[0], titles[0], cfg, env, info, cached);
    }
  }

  /** The k-th save holds the k-th item's rendered info under the hash of the k-th title. */
  lemma {:induction false} ItemSavesContent(items: seq<MediaItem>, titles: seq<string>, cfg: Config, env: Env, info: MediaItem -> string, cached: string -> bool)
    ensures forall k :: 0 <= k < Min(|items|, |titles|) && k < |Saves(PlanItems(items, titles, cfg, env, info, cached))| ==>
      Saves(PlanItems(items, titles, cfg, env, info, cached))[k]
      == SaveInfo(info(items[k]), CacheHash(env, titles[k]))
    decreases |items|
  {
    if !CachesText(cfg.preview) {
      ItemSavesCount(items, titles, cfg, env, info, cached);
    } else if |items| > 0 && |titles| > 0 {
      ItemSavesContent(items[1..], titles[1..], cfg, env, info, cached);
      var saves := Saves(PlanItems(items, titles, cfg, env, info, cached));
      forall k | 0 <= k < Min(|items|, |titles|) && k < |saves|
        ensures saves[k] == SaveInfo(info(items[k]), CacheHash(env, titles[k]))
      {
        ItemSaveShift(items, titles, cfg, env, info, cached, k);
        if k > 0 {
          assert items[1..][k - 1] == items[k] && titles[1..][k - 1] == titles[k];
        }
      }
    }
  }

  /** In a text-caching mode the first save is the first item's, and the later saves are those
      of the rest of the batch. */
  lemma ItemSaveShift(items: seq<MediaItem>, titles: seq<string>, cfg: Config, env: Env, info: MediaItem -> string, cached: string -> bool, k: int)
    requires |items| > 0 && |titles| > 0 && CachesText(cfg.preview)
    requires 0 <= k < |Saves(PlanItems(items, titles, cfg, env, info, cached))|
    ensures k == 0 ==> Saves(PlanItems(items, titles, cfg, env, info, cached))[k]
                       == SaveInfo(info(items[0]), CacheHash(env, titles[0]))
    ensures k > 0 ==>
      && k - 1 < |Saves(PlanItems(items[1..], titles[1..], cfg, env, info, cached))|
      && Saves(PlanItems(items, titles, cfg, env, info, cached))[k]
         == Saves(PlanItems(items[1..], titles[1..], cfg, env, info, cached))[k - 1]
  {
    ItemSavesStep(items, titles, cfg, env, info, cached);
    ItemSaves(items[0], titles[0], cfg, env, info, cached);
  }

  /** The saves of a plan are the first item's saves followed by the saves of the rest. */
  lemma ItemSavesStep(items: seq<MediaItem>, titles: seq<string>, cfg: Config, env: Env, info: MediaItem -> string, cached: string -> bool)
    requires |items| > 0 && |titles| > 0
    ensures Saves(PlanItems(items, titles, cfg, env, info, cached))
         == Saves(ItemTasks(items[0], titles[0], cfg, env, info, cached))
            + Saves(PlanItems(items[1..], titles[1..], cfg, env, info, cached))
  {
    SavesAppend(ItemTasks(items[0], titles[0], cfg, env, info, cached), PlanItems(items[1..], titles[1..], cfg, env, info, cached));
  }

  /** Every task of a plan is keyed by the hash of one of the processed titles. */
  lemma {:induction false} ItemKeys(items: seq<MediaItem>, titles: seq<string>, cfg: Config, env: Env, info: MediaItem -> string, cached: string -> bool)
    ensures forall t :: t in PlanItems(items, titles, cfg, env, info, cached) ==>
      exists i :: 0 <= i < Min(|items|, |titles|) && t.key == CacheHash(env, titles[i])
    decreases |items|
  {
    if |items| > 0 && |titles| > 0 {
      ItemKeys(items[1..], titles[1..], cfg, env, info, cached);
      ItemTaskContents(items[0], titles[0], cfg, env, info, cached);
      forall t | t in PlanItems(items, titles, cfg, env, info, cached)
        ensures exists i :: 0 <= i < Min(|items|, |titles|) && t.key == CacheHash(env, titles[i])
      {
        if t in ItemTasks(items[0], titles[0], cfg, env, info, cached) {
          assert t.key == CacheHash(env, titles[0]);
        } else {
          var i :| 0 <= i < Min(|items| - 1, |titles| - 1) && t.key == CacheHash(env, titles[1..][i]);
          assert titles[1..][i] == titles[i + 1];
        }
      }
    }
  }

  /** The number of items that have a cover image. */
  function CountCovers(items: seq<MediaItem>): (n: nat)
    ensures n <= |items|
    decreases |items|
  {
    if |items| == 0 then 0 else (if items[0].coverImage.Some? then 1 else 0) + CountCovers(items[1..])
  }

  lemma ItemTaskKinds(item: MediaItem, title: string, cfg: Config, env: Env, info: MediaItem -> string, cached: string -> bool)
    ensures |Fetches(ItemTasks(item, title, cfg, env, info, cached))|
         == if CachesImages(cfg.preview) && item.coverImage.Some? && !cached(CacheHash(env, title) + ".png") then 1 else 0
  {
    var key := CacheHash(env, title);
    var img := if CachesImages(cfg.preview) && item.coverImage.Some? && !cached(key + ".png")
               then [FetchImage(item.coverImage.value.large, key)] else [];
    var txt := if CachesText(cfg.preview)
               then [SaveInfo(info(item), key)] else [];
    assert ItemTasks(item, title, cfg, env, info, cached) == img + txt;
    FetchesAppend(img, txt);
  }

  /** In mode "full" with an empty image cache, N processed items of which M have a cover give
      exactly M downloads and N info saves. */
  lemma {:induction false} FullModeCounts(items: seq<MediaItem>, titles: seq<string>, cfg: Config, env: Env, info: MediaItem -> string, cached: string -> bool)
    requires cfg.preview == "full"
    requires forall name :: !cached(name)
    requires |items| == |titles|
    ensures |Fetches(PlanItems(items, titles, cfg, env, info, cached))| == CountCovers(items)
    ensures |Saves(PlanItems(items, titles, cfg, env, info, cached))| == |items|
    decreases |items|
  {
    ItemSavesExact(items, titles, cfg, env, info, cached);
    if |items| > 0 {
      FullModeCounts(items[1..], titles[1..], cfg, env, info, cached);
      FetchesAppend(ItemTasks(items[0], titles[0], cfg, env, info, cached), PlanItems(items[1..], titles[1..], cfg, env, info, cached));
      ItemTaskKinds(items[0], titles[0], cfg, env, info, cached);
    }
  }

  /** Planning is done item by item in order: the plan of two batches is the plan of the first
      followed by the plan of the second. */
  lemma {:induction false} PlanItemsAppend(items1: seq<MediaItem>, titles1: seq<string>, items2: seq<MediaItem>, titles2: seq<string>, cfg: Config, env: Env, info: MediaItem -> string, cached: string -> bool)
    requires |items1| == |titles1|
    ensures PlanItems(items1 + items2, titles1 + titles2, cfg, env, info, cached)
         == PlanItems(items1, titles1, cfg, env, info, cached) + PlanItems(items2, titles2, cfg, env, info, cached)
    decreases |items1|
  {
    if |items1| == 0 {
      assert items1 + items2 == items2 && titles1 + titles2 == titles2;
    } else {
      assert (items1 + items2)[0] == items1[0] && (titles1 + titles2)[0] == titles1[0];
      assert (items1 + items2)[1..] == items1[1..] + items2;
      assert (titles1 + titles2)[1..] == titles1[1..] + titles2;
      PlanItemsAppend(items1[1..], titles1[1..], items2, titles2, cfg, env, info, cached);
    }
  }

  /** Items or titles beyond the shorter list are ignored. */
  lemma {:induction false} PlanItemsTruncates(items: seq<MediaItem>, titles: seq<string>, cfg: Config, env: Env, info: MediaItem -> string, cached: string -> bool)
    ensures PlanItems(items, titles, cfg, env, info, cached)
         == PlanItems(items[..Min(|items|, |titles|)], titles[..Min(|items|, |titles|)], cfg, env, info, cached)
    decreases |items|
  {
    var n := Min(|items|, |titles|);
    if n > 0 {
      assert items[..n][0] == items[0] && titles[..n][0] == titles[0];
      assert items[..n][1..] == items[1..][..n - 1];
      assert titles[..n][1..] == titles[1..][..n - 1];
      PlanItemsTruncates(items[1..], titles[1..], cfg, env, info, cached);
    }
  }

  /** Planning again against a cache that has gained files re-plans exactly the same info saves. */
  lemma {:induction false} ReplanKeepsSaves(items: seq<MediaItem>, titles: seq<string>, cfg: Config, env: Env, info: MediaItem -> string, before: string -> bool, after: string -> bool)
    ensures Saves(PlanItems(items, titles, cfg, env, info, before)) == Saves(PlanItems(items, titles, cfg, env, info, after))
  {
    ItemSavesExact(items, titles, cfg, env, info, before);
    ItemSavesExact(items, titles, cfg, env, info, after);
  }

  /** A cache that has gained files never makes the worker download something it would not
      have downloaded before. */
  lemma {:induction false} FetchesShrink(items: seq<MediaItem>, titles: seq<string>, cfg: Config, env: Env, info: MediaItem -> string, before: string -> bool, after: string -> bool)
    requires forall name :: before(name) ==> after(name)
    ensures forall t :: (t in PlanItems(items, titles, cfg, env, info, after) && t.FetchImage?
      ==> t in PlanItems(items, titles, cfg, env, info, before))
    decreases |items|
  {
    if |items| > 0 && |titles| > 0 {
      FetchesShrink(items[1..], titles[1..], cfg, env, info, before, after);
      var key := CacheHash(env, titles[0]);
      assert after(key + ".png") || !before(key + ".png");
    }
  }

  /** Once every planned download has landed in the cache (and nothing was removed), planning
      again downloads nothing, while the info saves stay the same. */
  lemma ReplanSkipsImages(items: seq<MediaItem>, titles: seq<string>, cfg: Config, env: Env, info: MediaItem -> string, before: string -> bool, after: string -> bool)
    requires forall name :: before(name) ==> after(name)
    requires forall t :: t in PlanItems(items, titles, cfg, env, info, before) && t.FetchImage? ==> after(t.key + ".png")
    ensures Fetches(PlanItems(items, titles, cfg, env, info, after)) == []
  {
    var again := PlanItems(items, titles, cfg, env, info, after);
    FetchesShrink(items, titles, cfg, env, info, before, after);
    NoFetches(again);
  }

  /** A plan none of whose tasks is a download has no downloads. */
  lemma {:induction false} NoFetches(plan: seq<Task>)
    requires forall t :: t in plan ==> !t.FetchImage?
    ensures Fetches(plan) == []
    decreases |plan|
  {
    if |plan| > 0 {
      assert plan[0] in plan;
      assert forall t :: t in plan[1..] ==> t in plan;
      NoFetches(plan[1..]);
    }
  }

  // ---------------------------------------------------------------------------------------
  // `_episode_cache_worker`
  // ---------------------------------------------------------------------------------------

  /** The prefix of an episode's cache identity: the English title as an f-string prints it,
      so "None" when it is absent, then "_Episode_". */
  function EpisodePrefix(item: MediaItem): (r: string)
    ensures item.title.english.Some? ==> r == item.title.english.value + "_Episode_"
    ensures item.title.english.None? ==> r == "None_Episode_"
  {
    ShowText(item.title.english) + "_Episode_"
  }

  /** The string whose hash names an episode's cache files: the prefix, then the episode string. */
  function EpisodeIdentity(item: MediaItem, episode: string): (r: string)
    ensures |r| == |EpisodePrefix(item)| + |episode|
    ensures r[..|EpisodePrefix(item)|] == EpisodePrefix(item)
    ensures r[|EpisodePrefix(item)|..] == episode
  {
    EpisodePrefix(item) + episode
  }

  /** Within one item, distinct episode strings have distinct identities, so their cache files
      differ unless the hash collides. */
  lemma EpisodeIdentityInjective(item: MediaItem, e1: string, e2: string)
    ensures EpisodeIdentity(item, e1) == EpisodeIdentity(item, e2) <==> e1 == e2
  {
    if EpisodeIdentity(item, e1) == EpisodeIdentity(item, e2) {
      var n := |EpisodePrefix(item)|;
      assert e1 == EpisodeIdentity(item, e1)[n..];
    }
  }

  /** The episode title: the matching streaming episode's title when it is non-empty,
      "Episode <ep>" otherwise. Never empty. */
  function EpisodeTitle(item: MediaItem, episode: string): (title: string)
    ensures title != ""
    ensures episode in item.streamingEpisodes && Truthy(item.streamingEpisodes[episode].title)
      ==> title == item.streamingEpisodes[episode].title.value
    ensures !(episode in item.streamingEpisodes && Truthy(item.streamingEpisodes[episode].title))
      ==> title == "Episode " + episode
  {
    if episode in item.streamingEpisodes && Truthy(item.streamingEpisodes[episode].title)
    then item.streamingEpisodes[episode].title.value
    else "Episode " + episode
  }

  /** The episode thumbnail: the matching streaming episode's thumbnail, replaced by the item's
      large cover when it is missing or empty and the item has a cover. */
  function EpisodeThumbnail(item: MediaItem, episode: string): (thumb: Option<string>)
    ensures Truthy(thumb) <==>
      (episode in item.streamingEpisodes && Truthy(item.streamingEpisodes[episode].thumbnail))
      || (item.coverImage.Some? && item.coverImage.value.large != "")
    ensures episode in item.streamingEpisodes && Truthy(item.streamingEpisodes[episode].thumbnail)
      ==> thumb == item.streamingEpisodes[episode].thumbnail
    ensures !(episode in item.streamingEpisodes && Truthy(item.streamingEpisodes[episode].thumbnail))
      ==> item.coverImage.Some? ==> thumb == Some(item.coverImage.value.large)
    ensures item.coverImage.None? ==>
      thumb == (if episode in item.streamingEpisodes then item.streamingEpisodes[episode].thumbnail else None)
  {
    var own := if episode in item.streamingEpisodes then item.streamingEpisodes[episode].thumbnail else None;
    if !Truthy(own) && item.coverImage.Some? then Some(item.coverImage.value.large) else own
  }

  /** What the episode worker submits for one episode: a thumbnail download when there is a
      non-empty thumbnail, then always an info save. Neither the preview mode nor the cache
      contents are consulted. */
  function EpisodeTasks(episode: string, item: MediaItem, env: Env, info: string -> string): (tasks: seq<Task>)
    ensures 1 <= |tasks| <= 2
    ensures tasks[|tasks| - 1]
         == SaveInfo(info(EpisodeTitle(item, episode)),
                     CacheHash(env, EpisodeIdentity(item, episode)))
    ensures |tasks| == 2 <==> Truthy(EpisodeThumbnail(item, episode))
    ensures |tasks| == 2 ==>
      tasks[0] == FetchImage(EpisodeThumbnail(item, episode).value, CacheHash(env, EpisodeIdentity(item, episode)))
  {
    var key := CacheHash(env, EpisodeIdentity(item, episode));
    var thumb := EpisodeThumbnail(item, episode);
    var text := info(EpisodeTitle(item, episode));
    (if Truthy(thumb) then [FetchImage(thumb.value, key)] else []) + [SaveInfo(text, key)]
  }

  /** `_episode_cache_worker`: the tasks of every episode, in order. */
  function PlanEpisodes(episodes: seq<string>, item: MediaItem, env: Env, info: string -> string): (plan: seq<Task>)
    ensures |episodes| <= |plan| <= 2 * |episodes|
    decreases |episodes|
  {
    if |episodes| == 0 then [] else EpisodeTasks(episodes[0], item, env, info) + PlanEpisodes(episodes[1..], item, env, info)
  }

  /** Episodes are planned one after another in order: each episode's download (if any) and
      save come before those of the episodes after it. */
  lemma {:induction false} PlanEpisodesAppend(episodes1: seq<string>, episodes2: seq<string>, item: MediaItem, env: Env, info: string -> string)
    ensures PlanEpisodes(episodes1 + episodes2, item, env, info)
         == PlanEpisodes(episodes1, item, env, info) + PlanEpisodes(episodes2, item, env, info)
    decreases |episodes1|
  {
    if |episodes1| == 0 {
      assert episodes1 + episodes2 == episodes2;
    } else {
      assert (episodes1 + episodes2)[0] == episodes1[0];
      assert (episodes1 + episodes2)[1..] == episodes1[1..] + episodes2;
      PlanEpisodesAppend(episodes1[1..], episodes2, item, env, info);
    }
  }

  /** One info save per episode, the k-th for the k-th episode, keyed by the hash of its
      identity and holding its rendered info. */
  lemma {:induction false} EpisodeSavesExact(episodes: seq<string>, item: MediaItem, env: Env, info: string -> string)
    ensures |Saves(PlanEpisodes(episodes, item, env, info))| == |episodes|
    ensures forall k :: 0 <= k < |episodes| ==>
      Saves(PlanEpisodes(episodes, item, env, info))[k]
      == SaveInfo(info(EpisodeTitle(item, episodes[k])),
                  CacheHash(env, EpisodeIdentity(item, episodes[k])))
    decreases |episodes|
  {
    if |episodes| > 0 {
      var rest := episodes[1..];
      EpisodeSavesExact(rest, item, env, info);
      EpisodeTaskSaves(episodes[0], item, env, info);
      SavesAppend(EpisodeTasks(episodes[0], item, env, info), PlanEpisodes(rest, item, env, info));
      var saves := Saves(PlanEpisodes(episodes, item, env, info));
      forall k | 0 <= k < |episodes|
        ensures saves[k]
             == SaveInfo(info(EpisodeTitle(item, episodes[k])),
                         CacheHash(env, EpisodeIdentity(item, episodes[k])))
      {
        if k > 0 {
          assert episodes[k] == rest[k - 1];
        }
      }
    }
  }

  /** One episode contributes exactly its info save to the saves of the plan. */
  lemma EpisodeTaskSaves(episode: string, item: MediaItem, env: Env, info: string -> string)
    ensures Saves(EpisodeTasks(episode, item, env, info))
         == [SaveInfo(info(EpisodeTitle(item, episode)),
                      CacheHash(env, EpisodeIdentity(item, episode)))]
  {
    var head := EpisodeTasks(episode, item, env, info);
    if |head| == 2 {
      assert head == [head[0]] + [head[1]];
      SavesAppend([head[0]], [head[1]]);
      assert [head[1]][1..] == [];
    } else {
      assert head[1..] == [];
    }
  }

  /** Every task of an episode plan is keyed by the hash of the episode prefix followed by one
      of the episode strings. */
  lemma {:induction false} EpisodeKeys(episodes: seq<string>, item: MediaItem, env: Env, info: string -> string)
    ensures forall t :: t in PlanEpisodes(episodes, item, env, info) ==>
      exists i :: 0 <= i < |episodes| && t.key == CacheHash(env, EpisodePrefix(item) + episodes[i])
    decreases |episodes|
  {
    if |episodes| > 0 {
      EpisodeKeys(episodes[1..], item, env, info);
      var head := EpisodeTasks(episodes[0], item, env, info);
      forall t | t in PlanEpisodes(episodes, item, env, info)
        ensures exists i :: 0 <= i < |episodes| && t.key == CacheHash(env, EpisodePrefix(item) + episodes[i])
      {
        if t in head {
          assert t == head[0] || t == head[|head| - 1];
          assert t.key == CacheHash(env, EpisodePrefix(item) + episodes[0]);
        } else {
          var i :| 0 <= i < |episodes| - 1 && t.key == CacheHash(env, EpisodePrefix(item) + episodes[1..][i]);
          assert episodes[1..][i] == episodes[i + 1];
        }
      }
    }
  }

  /** A thumbnail download is planned exactly for an episode whose thumbnail, after falling
      back to the cover, is non-empty; it is keyed by the hash of that episode's identity. */
  lemma {:induction false} EpisodeFetchIff(episodes: seq<string>, item: MediaItem, env: Env, info: string -> string, url: string, key: string)
    ensures FetchImage(url, key) in PlanEpisodes(episodes, item, env, info)
        <==> exists i :: 0 <= i < |episodes|
              && Truthy(EpisodeThumbnail(item, episodes[i]))
              && url == EpisodeThumbnail(item, episodes[i]).value
              && key == CacheHash(env, EpisodeIdentity(item, episodes[i]))
    decreases |episodes|
  {
    if |episodes| > 0 {
      EpisodeFetchIff(episodes[1..], item, env, info, url, key);
      var head := EpisodeTasks(episodes[0], item, env, info);
      assert FetchImage(url, key) in head <==> |head| == 2 && head[0] == FetchImage(url, key);
      assert forall i :: 1 <= i < |episodes| ==> episodes[1..][i - 1] == episodes[i];
      if exists i :: 0 <= i < |episodes| && Truthy(EpisodeThumbnail(item, episodes[i]))
          && url == EpisodeThumbnail(item, episodes[i]).value
          && key == CacheHash(env, EpisodeIdentity(item, episodes[i])) {
        var i :| 0 <= i < |episodes| && Truthy(EpisodeThumbnail(item, episodes[i]))
          && url == EpisodeThumbnail(item, episodes[i]).value
          && key == CacheHash(env, EpisodeIdentity(item, episodes[i]));
        if i > 0 {
          assert episodes[1..][i - 1] == episodes[i];
        }
      }
    }
  }
}

=== FILE: preview.dfy ===
/** The two preview builders: each hands its batch to a background cache worker and returns the
    preview script with the cache locations, colours, path separator and file-name prefix
    substituted in. The worker's effect is represented by the tasks it submits. */
module Preview {
  import opened Strings
  import opened Substitution
  import opened Media
  import opened Planner
  import Render
  import Split

  /** Placeholder names of the preview script, in the order they are substituted. */
  const PREVIEW_KEYS: seq<string> := [
    "PREVIEW_MODE", "IMAGE_CACHE_PATH", "INFO_CACHE_PATH", "PATH_SEP", "IMAGE_RENDERER",
    "C_TITLE", "C_KEY", "C_VALUE", "C_RULE", "RESET", "PREFIX"]

  /** Index of PREFIX in PREVIEW_KEYS. */
  const PREFIX_INDEX := 10

  /** The path separator written into the script: a backslash on "win32", a slash elsewhere. */
  function PathSep(platform: string): (r: string)
    ensures |r| == 1
    ensures r == "\\" <==> platform == "win32"
    ensures r != "\\" ==> r == "/"
  {
    if platform == "win32" then "\\" else "/"
  }

  /** The values of the preview script, one per name of PREVIEW_KEYS. */
  function PreviewValues(cfg: Config, env: Env, prefix: string): (values: seq<string>)
    ensures |values| == |PREVIEW_KEYS|
    ensures PREVIEW_KEYS[0] == "PREVIEW_MODE" && values[0] == cfg.preview
    ensures PREVIEW_KEYS[1] == "IMAGE_CACHE_PATH" && values[1] == env.imagesCacheDir
    ensures PREVIEW_KEYS[2] == "INFO_CACHE_PATH" && values[2] == env.infoCacheDir
    ensures PREVIEW_KEYS[3] == "PATH_SEP" && values[3] == PathSep(env.platform)
    ensures PREVIEW_KEYS[4] == "IMAGE_RENDERER" && values[4] == cfg.imageRenderer
    ensures PREVIEW_KEYS[5] == "C_TITLE" && values[5] == env.ansi.trueFg(Split.Split(cfg.headerColor, ','), true)
    ensures PREVIEW_KEYS[6] == "C_KEY" && values[6] == values[5]
    ensures PREVIEW_KEYS[7] == "C_VALUE" && values[7] == values[5]
    ensures PREVIEW_KEYS[8] == "C_RULE" && values[8] == env.ansi.trueFg(Split.Split(cfg.separatorColor, ','), true)
    ensures PREVIEW_KEYS[9] == "RESET" && values[9] == env.ansi.reset
    ensures PREVIEW_KEYS[PREFIX_INDEX] == "PREFIX" && values[PREFIX_INDEX] == prefix
  {
    var header := Split.Split(cfg.headerColor, ',');
    var separator := Split.Split(cfg.separatorColor, ',');
    [ cfg.preview,
      env.imagesCacheDir,
      env.infoCacheDir,
      PathSep(env.platform),
      cfg.imageRenderer,
      env.ansi.trueFg(header, true),
      env.ansi.trueFg(header, true),
      env.ansi.trueFg(header, true),
      env.ansi.trueFg(separator, true),
      env.ansi.reset,
      prefix ]
  }

  function PreviewReplacements(cfg: Config, env: Env, prefix: string): Replacements {
    Zip(PREVIEW_KEYS, PreviewValues(cfg, env, prefix))
  }

  /** The renderer the item worker applies: the item info template filled in for an item. */
  function ItemInfo(env: Env): MediaItem -> string {
    item => Render.RenderInfo(env.templates.info, item, env.fmt)
  }

  /** The renderer the episode worker applies: the episode info template filled in for an
      episode title of `item`. */
  function EpisodeInfo(env: Env, item: MediaItem): string -> string {
    title => Render.RenderEpisodeInfo(env.templates.episodeInfo, title, item, env.fmt)
  }

  /** What a builder gives back (the script) together with what the background worker it
      started will submit (the tasks). */
  datatype Preview = Preview(script: string, tasks: seq<Task>)

  /** `get_anime_preview`: the PREFIX is empty and the worker plans the items' tasks. */
  function AnimePreview(items: seq<MediaItem>, titles: seq<string>, cfg: Config, env: Env, cached: string -> bool): (p: Preview)
    ensures Lacks(env.templates.preview, '{') ==> p.script == env.templates.preview
    ensures |p.tasks| <= 2 * Min(|items|, |titles|)
    ensures cfg.preview == "none" ==> p.tasks == []
  {
    Preview(Substitute(env.templates.preview, PreviewReplacements(cfg, env, "")),
            PlanItems(items, titles, cfg, env, ItemInfo(env), cached))
  }

  /** `get_episode_preview`: the PREFIX is the English title followed by "_Episode_" and the
      worker plans the episodes' tasks. */
  function EpisodePreview(episodes: seq<string>, item: MediaItem, cfg: Config, env: Env): (p: Preview)
    ensures Lacks(env.templates.preview, '{') ==> p.script == env.templates.preview
    ensures |episodes| <= |p.tasks| <= 2 * |episodes|
  {
    Preview(Substitute(env.templates.preview, PreviewReplacements(cfg, env, EpisodePrefix(item))),
            PlanEpisodes(episodes, item, env, EpisodeInfo(env, item)))
  }

  /** The configured strings and helper outputs that end up in the preview script contain no
      braces. */
  predicate PlainSettings(cfg: Config, env: Env, prefix: string) {
    && NoBraces(cfg.preview)
    && NoBraces(env.imagesCacheDir)
    && NoBraces(env.infoCacheDir)
    && NoBraces(cfg.imageRenderer)
    && NoBraces(env.ansi.trueFg(Split.Split(cfg.headerColor, ','), true))
    && NoBraces(env.ansi.trueFg(Split.Split(cfg.separatorColor, ','), true))
    && NoBraces(env.ansi.reset)
    && NoBraces(prefix)
  }

  /** The preview names are placeholder names, all different. */
  lemma PreviewKeyNames()
    ensures forall i :: 0 <= i < |PREVIEW_KEYS| ==> KeyName(PREVIEW_KEYS[i])
    ensures forall i, j :: 0 <= i < j < |PREVIEW_KEYS| ==> PREVIEW_KEYS[i] != PREVIEW_KEYS[j]
  {
  }

  lemma PreviewReplacementsWellFormed(cfg: Config, env: Env, prefix: string)
    requires PlainSettings(cfg, env, prefix)
    ensures Plain(PreviewReplacements(cfg, env, prefix))
    ensures forall j :: 0 <= j < |PREVIEW_KEYS| ==> FirstKeyAt(PreviewReplacements(cfg, env, prefix), j)
  {
    PreviewKeyNames();
    var values := PreviewValues(cfg, env, prefix);
    assert NoBraces(values[3]);
    assert forall i :: 0 <= i < |values| ==> NoBraces(values[i]);
  }

  /** In a preview template whose text before a placeholder is paired, the placeholder is
      replaced in place by its value. */
  lemma PreviewAt(a: string, b: string, j: int, cfg: Config, env: Env, prefix: string)
    requires 0 <= j < |PREVIEW_KEYS| && Paired(a, false) && PlainSettings(cfg, env, prefix)
    ensures Substitute(a + Token(PREVIEW_KEYS[j]) + b, PreviewReplacements(cfg, env, prefix))
         == Substitute(a, PreviewReplacements(cfg, env, prefix)) + PreviewValues(cfg, env, prefix)[j]
            + Substitute(b, PreviewReplacements(cfg, env, prefix))
  {
    PreviewReplacementsWellFormed(cfg, env, prefix);
    SubstituteAt(a, b, PreviewReplacements(cfg, env, prefix), j);
  }

  /** `{PATH_SEP}` becomes a backslash on "win32" and a slash on every other platform. */
  lemma PathSeparatorRendered(a: string, b: string, cfg: Config, env: Env, prefix: string)
    requires Paired(a, false) && PlainSettings(cfg, env, prefix)
    ensures var m := PreviewReplacements(cfg, env, prefix);
      Substitute(a + Token("PATH_SEP") + b, m)
      == Substitute(a, m) + (if env.platform == "win32" then "\\" else "/") + Substitute(b, m)
  {
    PreviewAt(a, b, 3, cfg, env, prefix);
  }

  /** `{IMAGE_CACHE_PATH}` and `{INFO_CACHE_PATH}` become the two cache directories. */
  lemma CachePathsRendered(a: string, b: string, cfg: Config, env: Env, prefix: string)
    requires Paired(a, false) && PlainSettings(cfg, env, prefix)
    ensures var m := PreviewReplacements(cfg, env, prefix);
      Substitute(a + Token("IMAGE_CACHE_PATH") + b, m) == Substitute(a, m) + env.imagesCacheDir + Substitute(b, m)
    ensures var m := PreviewReplacements(cfg, env, prefix);
      Substitute(a + Token("INFO_CACHE_PATH") + b, m) == Substitute(a, m) + env.infoCacheDir + Substitute(b, m)
  {
    PreviewAt(a, b, 1, cfg, env, prefix);
    PreviewAt(a, b, 2, cfg, env, prefix);
  }

  /** `{PREVIEW_MODE}` and `{IMAGE_RENDERER}` become the configured settings, and `{RESET}` the
      colour reset code. */
  lemma SettingsRendered(a: string, b: string, cfg: Config, env: Env, prefix: string)
    requires Paired(a, false) && PlainSettings(cfg, env, prefix)
    ensures var m := PreviewReplacements(cfg, env, prefix);
      Substitute(a + Token("PREVIEW_MODE") + b, m) == Substitute(a, m) + cfg.preview + Substitute(b, m)
    ensures var m := PreviewReplacements(cfg, env, prefix);
      Substitute(a + Token("IMAGE_RENDERER") + b, m) == Substitute(a, m) + cfg.imageRenderer + Substitute(b, m)
    ensures var m := PreviewReplacements(cfg, env, prefix);
      Substitute(a + Token("RESET") + b, m) == Substitute(a, m) + env.ansi.reset + Substitute(b, m)
  {
    PreviewAt(a, b, 0, cfg, env, prefix);
    PreviewAt(a, b, 4, cfg, env, prefix);
    PreviewAt(a, b, 9, cfg, env, prefix);
  }

  /** In the episode info text the worker saves, `{TITLE}` becomes the escaped episode title,
      which is "Episode " followed by the episode when no streaming episode with a title
      matches. */
  lemma EpisodeTitleRendered(a: string, b: string, episode: string, item: MediaItem, fmt: Formatter)
    requires Paired(a, false) && Render.EpisodeValuesPlain(EpisodeTitle(item, episode), item, fmt)
    ensures var t := EpisodeTitle(item, episode);
      Render.RenderEpisodeInfo(a + Token("TITLE") + b, t, item, fmt)
      == Render.RenderEpisodeInfo(a, t, item, fmt) + fmt.shellSafe(t) + Render.RenderEpisodeInfo(b, t, item, fmt)
    ensures var t := EpisodeTitle(item, episode);
      !(episode in item.streamingEpisodes && Truthy(item.streamingEpisodes[episode].title)) ==>
      Render.RenderEpisodeInfo(a + Token("TITLE") + b, t, item, fmt)
      == Render.RenderEpisodeInfo(a, t, item, fmt) + fmt.shellSafe("Episode " + episode) + Render.RenderEpisodeInfo(b, t, item, fmt)
  {
    Render.EpisodeTitleShown(a, b, EpisodeTitle(item, episode), item, fmt);
  }

  /** The script of the anime preview is its template with the empty PREFIX substituted in. */
  lemma AnimeScript(items: seq<MediaItem>, titles: seq<string>, cfg: Config, env: Env, cached: string -> bool)
    ensures AnimePreview(items, titles, cfg, env, cached).script
         == Substitute(env.templates.preview, PreviewReplacements(cfg, env, ""))
  {
  }

  /** The script of the episode preview is its template with the episode prefix substituted in. */
  lemma EpisodeScript(episodes: seq<string>, item: MediaItem, cfg: Config, env: Env)
    ensures EpisodePreview(episodes, item, cfg, env).script
         == Substitute(env.templates.preview, PreviewReplacements(cfg, env, EpisodePrefix(item)))
  {
  }

  /** The anime preview script shows `{PREFIX}` as nothing. */
  lemma AnimePrefixRendered(a: string, b: string, items: seq<MediaItem>, titles: seq<string>, cfg: Config, env: Env, cached: string -> bool)
    requires env.templates.preview == a + Token("PREFIX") + b
    requires Paired(a, false) && PlainSettings(cfg, env, "")
    ensures var m := PreviewReplacements(cfg, env, "");
      AnimePreview(items, titles, cfg, env, cached).script == Substitute(a, m) + Substitute(b, m)
  {
    AnimeScript(items, titles, cfg, env, cached);
    PreviewAt(a, b, PREFIX_INDEX, cfg, env, "");
    var m := PreviewReplacements(cfg, env, "");
    assert Substitute(a, m) + "" == Substitute(a, m);
  }

  /** The episode preview script shows `{PREFIX}` as the English title followed by
      "_Episode_". */
  lemma EpisodePrefixRendered(a: string, b: string, episodes: seq<string>, item: MediaItem, cfg: Config, env: Env)
    requires env.templates.preview == a + Token("PREFIX") + b
    requires Paired(a, false) && PlainSettings(cfg, env, "") && NoBraces(ShowText(item.title.english))
    ensures var m := PreviewReplacements(cfg, env, EpisodePrefix(item));
      EpisodePreview(episodes, item, cfg, env).script
      == Substitute(a, m) + ShowText(item.title.english) + "_Episode_" + Substitute(b, m)
  {
    var p := EpisodePrefix(item);
    assert NoBraces("_Episode_");
    assert NoBraces(p);
    EpisodeScript(episodes, item, cfg, env);
    PreviewAt(a, b, PREFIX_INDEX, cfg, env, p);
    AppendAssoc(Substitute(a, PreviewReplacements(cfg, env, p)), ShowText(item.title.english), "_Episode_");
  }

  /** The colour settings are comma-separated lists: a header colour written as the parts
      `header` joined by commas reaches the colour helper as exactly those parts, and the title,
      key and value colours are the same code; the rule colour is built the same way from the
      separator colour. */
  lemma ColourValues(cfg: Config, env: Env, prefix: string, header: seq<string>, separator: seq<string>)
    requires |header| >= 1 && forall i :: 0 <= i < |header| ==> ',' !in header[i]
    requires |separator| >= 1 && forall i :: 0 <= i < |separator| ==> ',' !in separator[i]
    requires cfg.headerColor == Split.Join(header, ',') && cfg.separatorColor == Split.Join(separator, ',')
    ensures var v := PreviewValues(cfg, env, prefix);
      && PREVIEW_KEYS[5] == "C_TITLE" && v[5] == env.ansi.trueFg(header, true)
      && PREVIEW_KEYS[6] == "C_KEY" && v[6] == v[5]
      && PREVIEW_KEYS[7] == "C_VALUE" && v[7] == v[5]
      && PREVIEW_KEYS[8] == "C_RULE" && v[8] == env.ansi.trueFg(separator, true)
  {
    Split.SplitJoin(header, ',');
    Split.SplitJoin(separator, ',');
  }

  /** `{C_TITLE}`, `{C_KEY}` and `{C_VALUE}` become the bold header colour and `{C_RULE}` the
      bold separator colour, each given to the colour helper as its comma-separated parts. */
  lemma ColoursRendered(a: string, b: string, cfg: Config, env: Env, prefix: string)
    requires Paired(a, false) && PlainSettings(cfg, env, prefix)
    ensures var m := PreviewReplacements(cfg, env, prefix);
      var header := env.ansi.trueFg(Split.Split(cfg.headerColor, ','), true);
      && Substitute(a + Token("C_TITLE") + b, m) == Substitute(a, m) + header + Substitute(b, m)
      && Substitute(a + Token("C_KEY") + b, m) == Substitute(a, m) + header + Substitute(b, m)
      && Substitute(a + Token("C_VALUE") + b, m) == Substitute(a, m) + header + Substitute(b, m)
    ensures var m := PreviewReplacements(cfg, env, prefix);
      Substitute(a + Token("C_RULE") + b, m)
      == Substitute(a, m) + env.ansi.trueFg(Split.Split(cfg.separatorColor, ','), true) + Substitute(b, m)
  {
    PreviewAt(a, b, 5, cfg, env, prefix);
    PreviewAt(a, b, 6, cfg, env, prefix);
    PreviewAt(a, b, 7, cfg, env, prefix);
    PreviewAt(a, b, 8, cfg, env, prefix);
  }

  /** A paired preview template keeps none of its placeholders, for either builder. */
  lemma PreviewComplete(cfg: Config, env: Env, items: seq<MediaItem>, titles: seq<string>, cached: string -> bool, episodes: seq<string>, item: MediaItem)
    requires Paired(env.templates.preview, false)
    requires PlainSettings(cfg, env, "") && NoBraces(ShowText(item.title.english))
    ensures forall k :: k in PREVIEW_KEYS ==> !Occurs(AnimePreview(items, titles, cfg, env, cached).script, Token(k))
    ensures forall k :: k in PREVIEW_KEYS ==> !Occurs(EpisodePreview(episodes, item, cfg, env).script, Token(k))
  {
    var p := EpisodePrefix(item);
    assert NoBraces("_Episode_");
    assert NoBraces(p);
    var m1 := PreviewReplacements(cfg, env, "");
    var m2 := PreviewReplacements(cfg, env, p);
    PreviewReplacementsWellFormed(cfg, env, "");
    PreviewReplacementsWellFormed(cfg, env, p);
    SubstituteClears(env.templates.preview, m1);
    SubstituteClears(env.templates.preview, m2);
    forall k | k in PREVIEW_KEYS
      ensures !Occurs(Substitute(env.templates.preview, m1), Token(k))
      ensures !Occurs(Substitute(env.templates.preview, m2), Token(k))
    {
      var i :| 0 <= i < |PREVIEW_KEYS| && PREVIEW_KEYS[i] == k;
      assert m1[i].0 == k && m2[i].0 == k;
    }
  }

  /** Every task the anime worker submits is keyed by the hash of the script's PREFIX (empty)
      followed by one of the processed titles: the script shows `{PREFIX}` as nothing. */
  lemma AnimeKeysFollowPrefix(a: string, b: string, items: seq<MediaItem>, titles: seq<string>, cfg: Config, env: Env, cached: string -> bool)
    ensures env.templates.preview == a + Token("PREFIX") + b && Paired(a, false) && PlainSettings(cfg, env, "") ==>
      var m := PreviewReplacements(cfg, env, "");
      AnimePreview(items, titles, cfg, env, cached).script == Substitute(a, m) + Substitute(b, m)
    ensures forall t :: t in AnimePreview(items, titles, cfg, env, cached).tasks ==>
      exists i :: 0 <= i < Min(|items|, |titles|) && t.key == CacheHash(env, titles[i])
  {
    if env.templates.preview == a + Token("PREFIX") + b && Paired(a, false) && PlainSettings(cfg, env, "") {
      AnimePrefixRendered(a, b, items, titles, cfg, env, cached);
    }
    ItemKeys(items, titles, cfg, env, ItemInfo(env), cached);
  }

  /** Every task the episode worker submits is keyed by the hash of the script's PREFIX
      followed by one of the episode strings, so the script can find each episode's files. */
  lemma EpisodeKeysFollowPrefix(a: string, b: string, episodes: seq<string>, item: MediaItem, cfg: Config, env: Env)
    ensures env.templates.preview == a + Token("PREFIX") + b && Paired(a, false)
            && PlainSettings(cfg, env, "") && NoBraces(ShowText(item.title.english)) ==>
      var m := PreviewReplacements(cfg, env, EpisodePrefix(item));
      EpisodePreview(episodes, item, cfg, env).script == Substitute(a, m) + EpisodePrefix(item) + Substitute(b, m)
    ensures forall t :: t in EpisodePreview(episodes, item, cfg, env).tasks ==>
      exists i :: 0 <= i < |episodes| && t.key == CacheHash(env, EpisodePrefix(item) + episodes[i])
  {
    if env.templates.preview == a + Token("PREFIX") + b && Paired(a, false)
       && PlainSettings(cfg, env, "") && NoBraces(ShowText(item.title.english)) {
      EpisodePrefixRendered(a, b, episodes, item, cfg, env);
      var m := PreviewReplacements(cfg, env, EpisodePrefix(item));
      AppendAssoc(Substitute(a, m), ShowText(item.title.english), "_Episode_");
    }
    EpisodeKeys(episodes, item, env, EpisodeInfo(env, item));
  }

  /** The anime worker downloads a cover exactly for a processed item that has one, in an
      image-caching mode, when `<hash(title)>.png` is not yet cached; the file is named after
      that item's own title. */
  lemma AnimeImagesFetched(items: seq<MediaItem>, titles: seq<string>, cfg: Config, env: Env, cached: string -> bool, url: string, key: string)
    ensures FetchImage(url, key) in AnimePreview(items, titles, cfg, env, cached).tasks
        <==> exists i :: 0 <= i < Min(|items|, |titles|)
              && CachesImages(cfg.preview)
              && items[i].coverImage.Some?
              && url == items[i].coverImage.value.large
              && key == CacheHash(env, titles[i])
              && !cached(key + ".png")
  {
    ItemFetchIff(items, titles, cfg, env, ItemInfo(env), cached, url, key);
  }

  /** The episode worker downloads a thumbnail exactly for an episode whose thumbnail, after
      the cover fallback, is truthy; the file is named after that episode's identity. */
  lemma EpisodeImagesFetched(episodes: seq<string>, item: MediaItem, cfg: Config, env: Env, url: string, key: string)
    ensures FetchImage(url, key) in EpisodePreview(episodes, item, cfg, env).tasks
        <==> exists i :: 0 <= i < |episodes|
              && Truthy(EpisodeThumbnail(item, episodes[i]))
              && url == EpisodeThumbnail(item, episodes[i]).value
              && key == CacheHash(env, EpisodeIdentity(item, episodes[i]))
  {
    EpisodeFetchIff(episodes, item, env, EpisodeInfo(env, item), url, key);
  }

  /** In a text-caching mode the anime worker saves one info file per processed item, the k-th
      holding the k-th item's rendered info under the hash of the k-th title. */
  lemma AnimeInfoSaved(items: seq<MediaItem>, titles: seq<string>, cfg: Config, env: Env, cached: string -> bool)
    requires CachesText(cfg.preview)
    ensures var saves := Saves(AnimePreview(items, titles, cfg, env, cached).tasks);
      && |saves| == Min(|items|, |titles|)
      && forall k :: 0 <= k < |saves| ==>
           saves[k] == SaveInfo(Render.RenderInfo(env.templates.info, items[k], env.fmt), CacheHash(env, titles[k]))
  {
    ItemSavesExact(items, titles, cfg, env, ItemInfo(env), cached);
  }

  /** The episode worker saves one info file per episode, the k-th holding the episode info
      rendered for the k-th episode's title under the hash of its identity. */
  lemma EpisodeInfoSaved(episodes: seq<string>, item: MediaItem, cfg: Config, env: Env)
    ensures var saves := Saves(EpisodePreview(episodes, item, cfg, env).tasks);
      && |saves| == |episodes|
      && forall k :: 0 <= k < |saves| ==>
           saves[k] == SaveInfo(Render.RenderEpisodeInfo(env.templates.episodeInfo, EpisodeTitle(item, episodes[k]), item, env.fmt),
                                CacheHash(env, EpisodeIdentity(item, episodes[k])))
  {
    EpisodeSavesExact(episodes, item, env, EpisodeInfo(env, item));
  }
}

=== FILE: render.dfy ===
/** The two info renderers: the values placed into the info template of a media item and into
    the episode info template, with the fixed placeholders used for missing data. */
module Render {
  import opened Strings
  import opened Substitution
  import opened Media
  import Decimal

  /** Placeholder names of the item info template, in the order they are substituted. */
  const INFO_KEYS: seq<string> := [
    "TITLE", "STATUS", "FORMAT", "NEXT_EPISODE", "EPISODES", "DURATION", "SCORE",
    "FAVOURITES", "POPULARITY", "GENRES", "TAGS", "STUDIOS", "SYNONYMNS", "USER_STATUS",
    "USER_PROGRESS", "START_DATE", "END_DATE", "SYNOPSIS"]

  /** Placeholder names of the episode info template, in the order they are substituted. */
  const EPISODE_INFO_KEYS: seq<string> := [
    "TITLE", "NEXT_EPISODE", "DURATION", "STATUS", "EPISODES", "USER_STATUS",
    "USER_PROGRESS", "START_DATE", "END_DATE"]

  /** The strftime pattern used for the next airing date, stray parenthesis included. */
  const AIRING_DATE_FORMAT := "%A, %d %B %Y at %X)"

  const NO_DESCRIPTION := "No description available."

  /** The values this item puts into the item info template contain no braces. */
  predicate InfoValuesPlain(item: MediaItem, fmt: Formatter) {
    forall i :: 0 <= i < |INFO_KEYS| ==> NoBraces(InfoValues(item, fmt)[i])
  }

  /** The values this episode puts into the episode info template contain no braces. */
  predicate EpisodeValuesPlain(title: string, item: MediaItem, fmt: Formatter) {
    forall i :: 0 <= i < |EPISODE_INFO_KEYS| ==> NoBraces(EpisodeInfoValues(title, item, fmt)[i])
  }

  /** The NEXT_EPISODE text: the episode number and airing date, or "N/A" when nothing is
      scheduled. */
  function NextEpisodeText(item: MediaItem, fmt: Formatter): (r: string)
    ensures r == "N/A" <==> item.nextAiring.None?
    ensures item.nextAiring.Some? ==>
      r == "Episode " + Decimal.IntToString(item.nextAiring.value.episode) + " on "
           + fmt.formatDate(Some(item.nextAiring.value.airingAt), Some("%A, %d %B %Y at %X)"))
  {
    match item.nextAiring
    case None => "N/A"
    case Some(next) =>
      var head := "Episode " + Decimal.IntToString(next.episode) + " on ";
      var r := head + fmt.formatDate(Some(next.airingAt), Some(AIRING_DATE_FORMAT));
      assert r[..|head|] == head;
      assert r[0] == 'E';
      r
  }

  /** The USER_STATUS text: the list status, or "NOT_ON_LIST" when the item is not on the
      user's list or its entry has no status. */
  function UserStatusText(item: MediaItem): (r: string)
    ensures item.userStatus.None? || item.userStatus.value.status.None? ==> r == "NOT_ON_LIST"
    ensures item.userStatus.Some? && item.userStatus.value.status.Some? ==>
      r == item.userStatus.value.status.value
  {
    if item.userStatus.Some? && item.userStatus.value.status.Some?
    then item.userStatus.value.status.value
    else "NOT_ON_LIST"
  }

  /** The USER_PROGRESS text: "0" exactly when the item is not on the user's list. */
  function UserProgressText(item: MediaItem): (r: string)
    ensures r == "0" <==> item.userStatus.None?
    ensures item.userStatus.Some? ==> r == "Episode " + ShowInt(item.userStatus.value.progress)
  {
    match item.userStatus
    case None => "0"
    case Some(entry) =>
      var r := "Episode " + ShowInt(entry.progress);
      assert r[..8] == "Episode ";
      r
  }

  /** The progress number can be read back from the USER_PROGRESS text; a missing progress
      prints as "None". */
  lemma UserProgressRoundTrip(item: MediaItem)
    requires item.userStatus.Some?
    ensures var r := UserProgressText(item);
      && |r| > 8 && r[..8] == "Episode "
      && (item.userStatus.value.progress.None? ==> r[8..] == "None")
      && (item.userStatus.value.progress.Some? ==>
            r[8..] == Decimal.IntToString(item.userStatus.value.progress.value)
            && Decimal.ParseInt(r[8..]) == item.userStatus.value.progress.value)
  {
    var r := UserProgressText(item);
    assert r[8..] == ShowInt(item.userStatus.value.progress);
    if item.userStatus.value.progress.Some? {
      Decimal.IntToStringRoundTrip(item.userStatus.value.progress.value);
    }
  }

  /** The studio names that are present and non-empty, in order. */
  function StudioNames(studios: seq<Studio>): (names: seq<string>)
    ensures |names| <= |studios|
    ensures forall n :: n in names ==> n != "" && exists st :: st in studios && st.name == Some(n)
    ensures forall st :: st in studios && Truthy(st.name) ==> st.name.value in names
    decreases |studios|
  {
    if |studios| == 0 then []
    else
      var rest := StudioNames(studios[1..]);
      assert forall st :: st in studios[1..] ==> st in studios;
      if Truthy(studios[0].name) then [studios[0].name.value] + rest else rest
  }

  /** A single studio contributes its name exactly when the name is present and non-empty. */
  lemma StudioNamesSingle(st: Studio)
    ensures StudioNames([st]) == if Truthy(st.name) then [st.name.value] else []
  {
    assert [st][1..] == [];
  }

  /** Filtering keeps order and duplicates: the names of two lists of studios are the names of
      the first followed by the names of the second. */
  lemma {:induction false} StudioNamesAppend(a: seq<Studio>, b: seq<Studio>)
    ensures StudioNames(a + b) == StudioNames(a) + StudioNames(b)
    decreases |a|
  {
    if |a| == 0 {
      assert a + b == b;
    } else {
      assert (a + b)[0] == a[0];
      assert (a + b)[1..] == a[1..] + b;
      StudioNamesAppend(a[1..], b);
    }
  }

  /** The texts of the item info template before escaping, one per name of INFO_KEYS. */
  function InfoTexts(item: MediaItem, fmt: Formatter): (texts: seq<string>)
    ensures |texts| == |INFO_KEYS|
    ensures texts[0] == if Truthy(item.title.english) then item.title.english.value else item.title.romaji
    ensures texts[3] == "N/A" <==> item.nextAiring.None?
    ensures item.userStatus.None? || item.userStatus.value.status.None? ==> texts[13] == "NOT_ON_LIST"
    ensures texts[14] == "0" <==> item.userStatus.None?
    ensures !Truthy(item.description) ==> texts[17] == fmt.cleanHtml(NO_DESCRIPTION)
  {
    [ OrElse(item.title.english, item.title.romaji),
      item.status,
      item.format,
      NextEpisodeText(item, fmt),
      ShowInt(item.episodes),
      fmt.formatMediaDuration(item.duration) ]
    + [ fmt.formatScoreStarsFull(item.averageScore),
        fmt.formatNumberWithCommas(item.favourites),
        fmt.formatNumberWithCommas(item.popularity),
        fmt.formatListWithCommas(item.genres),
        fmt.formatListWithCommas(item.tags),
        fmt.formatListWithCommas(StudioNames(item.studios)) ]
    + [ fmt.formatListWithCommas(item.synonymns),
        UserStatusText(item),
        UserProgressText(item),
        fmt.formatDate(item.startDate, None),
        fmt.formatDate(item.endDate, None),
        fmt.cleanHtml(OrElse(item.description, NO_DESCRIPTION)) ]
  }

  /** The values of the item info template: every text passed through the shell-escaping helper. */
  function InfoValues(item: MediaItem, fmt: Formatter): (values: seq<string>)
    ensures |values| == |INFO_KEYS|
    ensures forall i :: 0 <= i < |values| ==> values[i] == fmt.shellSafe(InfoTexts(item, fmt)[i])
  {
    var texts := InfoTexts(item, fmt);
    seq(|texts|, i requires 0 <= i < |texts| => fmt.shellSafe(texts[i]))
  }

  /** The values of the episode info template, one per name of EPISODE_INFO_KEYS. The duration
      is the only value not passed through the shell-escaping helper. */
  function EpisodeInfoValues(title: string, item: MediaItem, fmt: Formatter): (values: seq<string>)
    ensures |values| == |EPISODE_INFO_KEYS|
    ensures values[0] == fmt.shellSafe(title)
    ensures values[2] == fmt.formatMediaDuration(item.duration)
    ensures forall i :: 0 <= i < |values| && i != 2 ==> exists x :: values[i] == fmt.shellSafe(x)
    ensures item.nextAiring.None? ==> values[1] == fmt.shellSafe("N/A")
    ensures item.userStatus.None? || item.userStatus.value.status.None? ==> values[5] == fmt.shellSafe("NOT_ON_LIST")
    ensures item.userStatus.None? ==> values[6] == fmt.shellSafe("0")
  {
    var safe := fmt.shellSafe;
    [ safe(title),
      safe(NextEpisodeText(item, fmt)),
      fmt.formatMediaDuration(item.duration),
      safe(item.status),
      safe(ShowInt(item.episodes)),
      safe(UserStatusText(item)),
      safe(UserProgressText(item)),
      safe(fmt.formatDate(item.startDate, None)),
      safe(fmt.formatDate(item.endDate, None)) ]
  }

  function InfoReplacements(item: MediaItem, fmt: Formatter): Replacements {
    Zip(INFO_KEYS, InfoValues(item, fmt))
  }

  function EpisodeInfoReplacements(title: string, item: MediaItem, fmt: Formatter): Replacements {
    Zip(EPISODE_INFO_KEYS, EpisodeInfoValues(title, item, fmt))
  }

  /** `_populate_info_template`: the info template with the 18 placeholders substituted in
      order. A template without `{` is returned as it is. */
  function RenderInfo(template: string, item: MediaItem, fmt: Formatter): (r: string)
    ensures Lacks(template, '{') ==> r == template
  {
    Substitute(template, InfoReplacements(item, fmt))
  }

  /** `_populate_episode_info_template`: the episode info template with the 9 placeholders
      substituted in order. A template without `{` is returned as it is. */
  function RenderEpisodeInfo(template: string, title: string, item: MediaItem, fmt: Formatter): (r: string)
    ensures Lacks(template, '{') ==> r == template
  {
    Substitute(template, EpisodeInfoReplacements(title, item, fmt))
  }

  /** The item info placeholder names are well-formed key names, pairwise distinct. */
  lemma InfoKeysWellFormed()
    ensures forall i :: 0 <= i < |INFO_KEYS| ==> KeyName(INFO_KEYS[i])
    ensures forall i, j :: 0 <= i < j < |INFO_KEYS| ==> INFO_KEYS[i] != INFO_KEYS[j]
  {
    InfoKeyNames();
    InfoKeysDistinct();
  }

  lemma InfoKeyNames()
    ensures forall i :: 0 <= i < |INFO_KEYS| ==> KeyName(INFO_KEYS[i])
  {
  }

  lemma InfoKeysDistinct()
    ensures forall i, j :: 0 <= i < j < |INFO_KEYS| ==> INFO_KEYS[i] != INFO_KEYS[j]
  {
  }

  lemma EpisodeKeysWellFormed()
    ensures forall i :: 0 <= i < |EPISODE_INFO_KEYS| ==> KeyName(EPISODE_INFO_KEYS[i])
    ensures forall i, j :: 0 <= i < j < |EPISODE_INFO_KEYS| ==> EPISODE_INFO_KEYS[i] != EPISODE_INFO_KEYS[j]
  {
  }

  lemma InfoReplacementsWellFormed(item: MediaItem, fmt: Formatter)
    requires InfoValuesPlain(item, fmt)
    ensures Plain(InfoReplacements(item, fmt))
    ensures forall j :: 0 <= j < |INFO_KEYS| ==> FirstKeyAt(InfoReplacements(item, fmt), j)
  {
    InfoKeysWellFormed();
  }

  lemma EpisodeReplacementsWellFormed(title: string, item: MediaItem, fmt: Formatter)
    requires EpisodeValuesPlain(title, item, fmt)
    ensures Plain(EpisodeInfoReplacements(title, item, fmt))
    ensures forall j :: 0 <= j < |EPISODE_INFO_KEYS| ==> FirstKeyAt(EpisodeInfoReplacements(title, item, fmt), j)
  {
    EpisodeKeysWellFormed();
    var values := EpisodeInfoValues(title, item, fmt);
    assert forall i :: 0 <= i < |values| ==> NoBraces(values[i]);
  }

  /** Where the placeholders that have a fallback sit in INFO_KEYS. */
  lemma InfoKeyPositions()
    ensures INFO_KEYS[0] == "TITLE" && INFO_KEYS[3] == "NEXT_EPISODE" && INFO_KEYS[5] == "DURATION"
    ensures INFO_KEYS[13] == "USER_STATUS" && INFO_KEYS[14] == "USER_PROGRESS" && INFO_KEYS[17] == "SYNOPSIS"
  {
  }

  /** Where the placeholders that have a fallback sit in EPISODE_INFO_KEYS. */
  lemma EpisodeKeyPositions()
    ensures EPISODE_INFO_KEYS[0] == "TITLE"
    ensures EPISODE_INFO_KEYS[1] == "NEXT_EPISODE" && EPISODE_INFO_KEYS[2] == "DURATION"
    ensures EPISODE_INFO_KEYS[5] == "USER_STATUS" && EPISODE_INFO_KEYS[6] == "USER_PROGRESS"
  {
  }

  /** The names of the item info placeholders, position by position. */
  lemma InfoKeyOrder()
    ensures INFO_KEYS[0] == "TITLE" && INFO_KEYS[1] == "STATUS" && INFO_KEYS[2] == "FORMAT"
    ensures INFO_KEYS[3] == "NEXT_EPISODE" && INFO_KEYS[4] == "EPISODES" && INFO_KEYS[5] == "DURATION"
    ensures INFO_KEYS[6] == "SCORE" && INFO_KEYS[7] == "FAVOURITES" && INFO_KEYS[8] == "POPULARITY"
    ensures INFO_KEYS[9] == "GENRES" && INFO_KEYS[10] == "TAGS" && INFO_KEYS[11] == "STUDIOS"
    ensures INFO_KEYS[12] == "SYNONYMNS" && INFO_KEYS[13] == "USER_STATUS" && INFO_KEYS[14] == "USER_PROGRESS"
    ensures INFO_KEYS[15] == "START_DATE" && INFO_KEYS[16] == "END_DATE" && INFO_KEYS[17] == "SYNOPSIS"
  {
  }

  /** The texts behind one group of item info placeholders. */
  lemma InfoTextsTitle(item: MediaItem, fmt: Formatter)
    ensures var t := InfoTexts(item, fmt);
      && t[0] == OrElse(item.title.english, item.title.romaji)
      && t[1] == item.status
      && t[2] == item.format
  {
  }

  /** The item info placeholders TITLE, STATUS and FORMAT, each with the field it shows before escaping. */
  lemma InfoFieldsTitle(item: MediaItem, fmt: Formatter)
    ensures var t := InfoTexts(item, fmt);
      && INFO_KEYS[0] == "TITLE" && t[0] == OrElse(item.title.english, item.title.romaji)
      && INFO_KEYS[1] == "STATUS" && t[1] == item.status
      && INFO_KEYS[2] == "FORMAT" && t[2] == item.format
  {
    InfoKeyOrder();
    InfoTextsTitle(item, fmt);
  }

  /** The texts behind one group of item info placeholders. */
  lemma InfoTextsAiring(item: MediaItem, fmt: Formatter)
    ensures var t := InfoTexts(item, fmt);
      && t[3] == NextEpisodeText(item, fmt)
      && t[4] == ShowInt(item.episodes)
      && t[5] == fmt.formatMediaDuration(item.duration)
  {
  }

  /** The item info placeholders NEXT_EPISODE, EPISODES and DURATION, each with the field it shows before escaping. */
  lemma InfoFieldsAiring(item: MediaItem, fmt: Formatter)
    ensures var t := InfoTexts(item, fmt);
      && INFO_KEYS[3] == "NEXT_EPISODE" && t[3] == NextEpisodeText(item, fmt)
      && INFO_KEYS[4] == "EPISODES" && t[4] == ShowInt(item.episodes)
      && INFO_KEYS[5] == "DURATION" && t[5] == fmt.formatMediaDuration(item.duration)
  {
    InfoKeyOrder();
    InfoTextsAiring(item, fmt);
  }

  /** The texts behind one group of item info placeholders. */
  lemma InfoTextsScores(item: MediaItem, fmt: Formatter)
    ensures var t := InfoTexts(item, fmt);
      && t[6] == fmt.formatScoreStarsFull(item.averageScore)
      && t[7] == fmt.formatNumberWithCommas(item.favourites)
      && t[8] == fmt.formatNumberWithCommas(item.popularity)
  {
  }

  /** The item info placeholders SCORE, FAVOURITES and POPULARITY, each with the field it shows before escaping. */
  lemma InfoFieldsScores(item: MediaItem, fmt: Formatter)
    ensures var t := InfoTexts(item, fmt);
      && INFO_KEYS[6] == "SCORE" && t[6] == fmt.formatScoreStarsFull(item.averageScore)
      && INFO_KEYS[7] == "FAVOURITES" && t[7] == fmt.formatNumberWithCommas(item.favourites)
      && INFO_KEYS[8] == "POPULARITY" && t[8] == fmt.formatNumberWithCommas(item.popularity)
  {
    InfoKeyOrder();
    InfoTextsScores(item, fmt);
  }

  /** The texts behind one group of item info placeholders. */
  lemma InfoTextsLists(item: MediaItem, fmt: Formatter)
    ensures var t := InfoTexts(item, fmt);
      && t[9] == fmt.formatListWithCommas(item.genres)
      && t[10] == fmt.formatListWithCommas(item.tags)
      && t[11] == fmt.formatListWithCommas(StudioNames(item.studios))
  {
  }

  /** The item info placeholders GENRES, TAGS and STUDIOS, each with the field it shows before escaping. */
  lemma InfoFieldsLists(item: MediaItem, fmt: Formatter)
    ensures var t := InfoTexts(item, fmt);
      && INFO_KEYS[9] == "GENRES" && t[9] == fmt.formatListWithCommas(item.genres)
      && INFO_KEYS[10] == "TAGS" && t[10] == fmt.formatListWithCommas(item.tags)
      && INFO_KEYS[11] == "STUDIOS" && t[11] == fmt.formatListWithCommas(StudioNames(item.studios))
  {
    InfoKeyOrder();
    InfoTextsLists(item, fmt);
  }

  /** The texts behind one group of item info placeholders. */
  lemma InfoTextsUser(item: MediaItem, fmt: Formatter)
    ensures var t := InfoTexts(item, fmt);
      && t[12] == fmt.formatListWithCommas(item.synonymns)
      && t[13] == UserStatusText(item)
      && t[14] == UserProgressText(item)
  {
  }

  /** The item info placeholders SYNONYMNS, USER_STATUS and USER_PROGRESS, each with the field it shows before escaping. */
  lemma InfoFieldsUser(item: MediaItem, fmt: Formatter)
    ensures var t := InfoTexts(item, fmt);
      && INFO_KEYS[12] == "SYNONYMNS" && t[12] == fmt.formatListWithCommas(item.synonymns)
      && INFO_KEYS[13] == "USER_STATUS" && t[13] == UserStatusText(item)
      && INFO_KEYS[14] == "USER_PROGRESS" && t[14] == UserProgressText(item)
  {
    InfoKeyOrder();
    InfoTextsUser(item, fmt);
  }

  /** The texts behind one group of item info placeholders. */
  lemma InfoTextsDates(item: MediaItem, fmt: Formatter)
    ensures var t := InfoTexts(item, fmt);
      && t[15] == fmt.formatDate(item.startDate, None)
      && t[16] == fmt.formatDate(item.endDate, None)
      && t[17] == fmt.cleanHtml(OrElse(item.description, NO_DESCRIPTION))
  {
  }

  /** The item info placeholders START_DATE, END_DATE and SYNOPSIS, each with the field it shows before escaping. */
  lemma InfoFieldsDates(item: MediaItem, fmt: Formatter)
    ensures var t := InfoTexts(item, fmt);
      && INFO_KEYS[15] == "START_DATE" && t[15] == fmt.formatDate(item.startDate, None)
      && INFO_KEYS[16] == "END_DATE" && t[16] == fmt.formatDate(item.endDate, None)
      && INFO_KEYS[17] == "SYNOPSIS" && t[17] == fmt.cleanHtml(OrElse(item.description, NO_DESCRIPTION))
  {
    InfoKeyOrder();
    InfoTextsDates(item, fmt);
  }

  /** Each placeholder of the episode info template, by name, with the value it shows. */
  lemma EpisodeFields(title: string, item: MediaItem, fmt: Formatter)
    ensures var v := EpisodeInfoValues(title, item, fmt);
      && EPISODE_INFO_KEYS[0] == "TITLE" && v[0] == fmt.shellSafe(title)
      && EPISODE_INFO_KEYS[1] == "NEXT_EPISODE" && v[1] == fmt.shellSafe(NextEpisodeText(item, fmt))
      && EPISODE_INFO_KEYS[2] == "DURATION" && v[2] == fmt.formatMediaDuration(item.duration)
      && EPISODE_INFO_KEYS[3] == "STATUS" && v[3] == fmt.shellSafe(item.status)
      && EPISODE_INFO_KEYS[4] == "EPISODES" && v[4] == fmt.shellSafe(ShowInt(item.episodes))
      && EPISODE_INFO_KEYS[5] == "USER_STATUS" && v[5] == fmt.shellSafe(UserStatusText(item))
      && EPISODE_INFO_KEYS[6] == "USER_PROGRESS" && v[6] == fmt.shellSafe(UserProgressText(item))
      && EPISODE_INFO_KEYS[7] == "START_DATE" && v[7] == fmt.shellSafe(fmt.formatDate(item.startDate, None))
      && EPISODE_INFO_KEYS[8] == "END_DATE" && v[8] == fmt.shellSafe(fmt.formatDate(item.endDate, None))
  {
  }

  /** In an item info template whose text before a placeholder is paired, the placeholder is
      replaced in place by its value and the text around it is rendered on its own. */
  lemma RenderInfoAt(a: string, b: string, j: int, item: MediaItem, fmt: Formatter)
    requires 0 <= j < |INFO_KEYS| && Paired(a, false) && InfoValuesPlain(item, fmt)
    ensures RenderInfo(a + Token(INFO_KEYS[j]) + b, item, fmt)
         == RenderInfo(a, item, fmt) + InfoValues(item, fmt)[j] + RenderInfo(b, item, fmt)
  {
    InfoReplacementsWellFormed(item, fmt);
    SubstituteAt(a, b, InfoReplacements(item, fmt), j);
  }

  lemma RenderEpisodeInfoAt(a: string, b: string, j: int, title: string, item: MediaItem, fmt: Formatter)
    requires 0 <= j < |EPISODE_INFO_KEYS| && Paired(a, false)
    requires EpisodeValuesPlain(title, item, fmt)
    ensures RenderEpisodeInfo(a + Token(EPISODE_INFO_KEYS[j]) + b, title, item, fmt)
         == RenderEpisodeInfo(a, title, item, fmt) + EpisodeInfoValues(title, item, fmt)[j]
            + RenderEpisodeInfo(b, title, item, fmt)
  {
    EpisodeReplacementsWellFormed(title, item, fmt);
    SubstituteAt(a, b, EpisodeInfoReplacements(title, item, fmt), j);
  }

  /** With no next airing, `{NEXT_EPISODE}` renders as the escaped "N/A" in both templates. */
  lemma NextEpisodeFallback(a: string, b: string, title: string, item: MediaItem, fmt: Formatter)
    requires item.nextAiring.None? && Paired(a, false)
    requires InfoValuesPlain(item, fmt) && EpisodeValuesPlain(title, item, fmt)
    ensures RenderInfo(a + Token("NEXT_EPISODE") + b, item, fmt)
         == RenderInfo(a, item, fmt) + fmt.shellSafe("N/A") + RenderInfo(b, item, fmt)
    ensures RenderEpisodeInfo(a + Token("NEXT_EPISODE") + b, title, item, fmt)
         == RenderEpisodeInfo(a, title, item, fmt) + fmt.shellSafe("N/A")
            + RenderEpisodeInfo(b, title, item, fmt)
  {
    InfoNextEpisodeFallback(a, b, item, fmt);
    EpisodeNextEpisodeFallback(a, b, title, item, fmt);
  }

  lemma InfoNextEpisodeFallback(a: string, b: string, item: MediaItem, fmt: Formatter)
    requires item.nextAiring.None? && Paired(a, false) && InfoValuesPlain(item, fmt)
    ensures RenderInfo(a + Token("NEXT_EPISODE") + b, item, fmt)
         == RenderInfo(a, item, fmt) + fmt.shellSafe("N/A") + RenderInfo(b, item, fmt)
  {
    InfoKeyPositions();
    assert InfoValues(item, fmt)[3] == fmt.shellSafe("N/A") by {
      assert InfoTexts(item, fmt)[3] == "N/A";
    }
    RenderInfoAt(a, b, 3, item, fmt);
  }

  lemma EpisodeNextEpisodeFallback(a: string, b: string, title: string, item: MediaItem, fmt: Formatter)
    requires item.nextAiring.None? && Paired(a, false) && EpisodeValuesPlain(title, item, fmt)
    ensures RenderEpisodeInfo(a + Token("NEXT_EPISODE") + b, title, item, fmt)
         == RenderEpisodeInfo(a, title, item, fmt) + fmt.shellSafe("N/A")
            + RenderEpisodeInfo(b, title, item, fmt)
  {
    EpisodeKeyPositions();
    RenderEpisodeInfoAt(a, b, 1, title, item, fmt);
  }

  /** An item not on the user's list renders `{USER_STATUS}` as the escaped "NOT_ON_LIST" and
      `{USER_PROGRESS}` as the escaped "0"; an entry without a status still renders
      "NOT_ON_LIST". */
  lemma UserListFallback(a: string, b: string, item: MediaItem, fmt: Formatter)
    requires item.userStatus.None? || item.userStatus.value.status.None?
    requires Paired(a, false) && InfoValuesPlain(item, fmt)
    ensures RenderInfo(a + Token("USER_STATUS") + b, item, fmt)
         == RenderInfo(a, item, fmt) + fmt.shellSafe("NOT_ON_LIST") + RenderInfo(b, item, fmt)
    ensures item.userStatus.None? ==>
      RenderInfo(a + Token("USER_PROGRESS") + b, item, fmt)
      == RenderInfo(a, item, fmt) + fmt.shellSafe("0") + RenderInfo(b, item, fmt)
  {
    InfoKeyPositions();
    assert InfoValues(item, fmt)[13] == fmt.shellSafe("NOT_ON_LIST") by {
      assert InfoTexts(item, fmt)[13] == "NOT_ON_LIST";
    }
    RenderInfoAt(a, b, 13, item, fmt);
    if item.userStatus.None? {
      assert InfoValues(item, fmt)[14] == fmt.shellSafe("0") by {
        assert InfoTexts(item, fmt)[14] == "0";
      }
      RenderInfoAt(a, b, 14, item, fmt);
    }
  }

  /** The same fallbacks in the episode info template. */
  lemma EpisodeUserListFallback(a: string, b: string, title: string, item: MediaItem, fmt: Formatter)
    requires item.userStatus.None? || item.userStatus.value.status.None?
    requires Paired(a, false) && EpisodeValuesPlain(title, item, fmt)
    ensures RenderEpisodeInfo(a + Token("USER_STATUS") + b, title, item, fmt)
         == RenderEpisodeInfo(a, title, item, fmt) + fmt.shellSafe("NOT_ON_LIST")
            + RenderEpisodeInfo(b, title, item, fmt)
    ensures item.userStatus.None? ==>
      RenderEpisodeInfo(a + Token("USER_PROGRESS") + b, title, item, fmt)
      == RenderEpisodeInfo(a, title, item, fmt) + fmt.shellSafe("0")
         + RenderEpisodeInfo(b, title, item, fmt)
  {
    EpisodeKeyPositions();
    RenderEpisodeInfoAt(a, b, 5, title, item, fmt);
    RenderEpisodeInfoAt(a, b, 6, title, item, fmt);
  }

  /** `{TITLE}` shows the English title when it is non-empty, the romaji title otherwise; a
      missing description shows the default text. */
  lemma TitleAndSynopsisFallback(a: string, b: string, item: MediaItem, fmt: Formatter)
    requires Paired(a, false) && InfoValuesPlain(item, fmt)
    ensures RenderInfo(a + Token("TITLE") + b, item, fmt)
         == RenderInfo(a, item, fmt)
            + fmt.shellSafe(if Truthy(item.title.english) then item.title.english.value else item.title.romaji)
            + RenderInfo(b, item, fmt)
    ensures !Truthy(item.description) ==>
      RenderInfo(a + Token("SYNOPSIS") + b, item, fmt)
      == RenderInfo(a, item, fmt) + fmt.shellSafe(fmt.cleanHtml(NO_DESCRIPTION)) + RenderInfo(b, item, fmt)
  {
    InfoKeyPositions();
    assert InfoValues(item, fmt)[0]
        == fmt.shellSafe(if Truthy(item.title.english) then item.title.english.value else item.title.romaji) by {
      assert InfoTexts(item, fmt)[0] == if Truthy(item.title.english) then item.title.english.value else item.title.romaji;
    }
    RenderInfoAt(a, b, 0, item, fmt);
    if !Truthy(item.description) {
      assert InfoValues(item, fmt)[17] == fmt.shellSafe(fmt.cleanHtml(NO_DESCRIPTION)) by {
        assert InfoTexts(item, fmt)[17] == fmt.cleanHtml(NO_DESCRIPTION);
      }
      RenderInfoAt(a, b, 17, item, fmt);
    }
  }

  /** The episode template shows the duration exactly as the formatter writes it, while the
      item template shows it escaped. */
  lemma DurationEscaping(a: string, b: string, title: string, item: MediaItem, fmt: Formatter)
    requires Paired(a, false) && InfoValuesPlain(item, fmt) && EpisodeValuesPlain(title, item, fmt)
    ensures RenderEpisodeInfo(a + Token("DURATION") + b, title, item, fmt)
         == RenderEpisodeInfo(a, title, item, fmt) + fmt.formatMediaDuration(item.duration)
            + RenderEpisodeInfo(b, title, item, fmt)
    ensures RenderInfo(a + Token("DURATION") + b, item, fmt)
         == RenderInfo(a, item, fmt) + fmt.shellSafe(fmt.formatMediaDuration(item.duration))
            + RenderInfo(b, item, fmt)
  {
    EpisodeDurationRaw(a, b, title, item, fmt);
    InfoDurationEscaped(a, b, item, fmt);
  }

  lemma EpisodeDurationRaw(a: string, b: string, title: string, item: MediaItem, fmt: Formatter)
    requires Paired(a, false) && EpisodeValuesPlain(title, item, fmt)
    ensures RenderEpisodeInfo(a + Token("DURATION") + b, title, item, fmt)
         == RenderEpisodeInfo(a, title, item, fmt) + fmt.formatMediaDuration(item.duration)
            + RenderEpisodeInfo(b, title, item, fmt)
  {
    EpisodeKeyPositions();
    RenderEpisodeInfoAt(a, b, 2, title, item, fmt);
  }

  /** `{TITLE}` in the episode template shows the episode title it is given, escaped. */
  lemma EpisodeTitleShown(a: string, b: string, title: string, item: MediaItem, fmt: Formatter)
    requires Paired(a, false) && EpisodeValuesPlain(title, item, fmt)
    ensures RenderEpisodeInfo(a + Token("TITLE") + b, title, item, fmt)
         == RenderEpisodeInfo(a, title, item, fmt) + fmt.shellSafe(title) + RenderEpisodeInfo(b, title, item, fmt)
  {
    EpisodeKeyPositions();
    RenderEpisodeInfoAt(a, b, 0, title, item, fmt);
  }

  lemma InfoDurationEscaped(a: string, b: string, item: MediaItem, fmt: Formatter)
    requires Paired(a, false) && InfoValuesPlain(item, fmt)
    ensures RenderInfo(a + Token("DURATION") + b, item, fmt)
         == RenderInfo(a, item, fmt) + fmt.shellSafe(fmt.formatMediaDuration(item.duration))
            + RenderInfo(b, item, fmt)
  {
    InfoKeyPositions();
    InfoDurationValue(item, fmt);
    RenderInfoAt(a, b, 5, item, fmt);
  }

  lemma InfoDurationValue(item: MediaItem, fmt: Formatter)
    ensures InfoValues(item, fmt)[5] == fmt.shellSafe(fmt.formatMediaDuration(item.duration))
  {
    assert InfoTexts(item, fmt)[5] == fmt.formatMediaDuration(item.duration);
  }

  /** A paired item info template keeps none of its placeholders after rendering. */
  lemma RenderInfoComplete(template: string, item: MediaItem, fmt: Formatter)
    requires Paired(template, false) && InfoValuesPlain(item, fmt)
    ensures forall k :: k in INFO_KEYS ==> !Occurs(RenderInfo(template, item, fmt), Token(k))
  {
    var m := InfoReplacements(item, fmt);
    InfoReplacementsWellFormed(item, fmt);
    SubstituteClears(template, m);
    forall k | k in INFO_KEYS
      ensures !Occurs(RenderInfo(template, item, fmt), Token(k))
    {
      var i :| 0 <= i < |INFO_KEYS| && INFO_KEYS[i] == k;
      assert m[i].0 == k;
    }
  }

  /** A paired episode info template keeps none of its placeholders after rendering. */
  lemma RenderEpisodeInfoComplete(template: string, title: string, item: MediaItem, fmt: Formatter)
    requires Paired(template, false) && EpisodeValuesPlain(title, item, fmt)
    ensures forall k :: k in EPISODE_INFO_KEYS ==>
      !Occurs(RenderEpisodeInfo(template, title, item, fmt), Token(k))
  {
    var m := EpisodeInfoReplacements(title, item, fmt);
    EpisodeReplacementsWellFormed(title, item, fmt);
    SubstituteClears(template, m);
    forall k | k in EPISODE_INFO_KEYS
      ensures !Occurs(RenderEpisodeInfo(template, title, item, fmt), Token(k))
    {
      var i :| 0 <= i < |EPISODE_INFO_KEYS| && EPISODE_INFO_KEYS[i] == k;
      assert m[i].0 == k;
    }
  }

  /** A template that mentions none of the info placeholders is returned unchanged. */
  lemma RenderInfoUntouched(template: string, item: MediaItem, fmt: Formatter)
    requires forall k :: k in INFO_KEYS ==> !Occurs(template, Token(k))
    ensures RenderInfo(template, item, fmt) == template
  {
    var m := InfoReplacements(item, fmt);
    assert forall i :: 0 <= i < |m| ==> m[i].0 == INFO_KEYS[i];
    SubstituteAbsent(template, m);
  }
}

=== FILE: split.dfy ===
/** Python's `s.split(sep)` for a one-character separator, as used to read the comma-separated
    header and separator colours, with `sep.join(parts)` as its inverse. */
module Split {

  /** Python's `s.split(sep)`: the pieces between separators, keeping empty ones. */
  function Split(s: string, sep: char): (parts: seq<string>)
    ensures |parts| >= 1
    ensures forall i :: 0 <= i < |parts| ==> sep !in parts[i]
    decreases |s|
  {
    if |s| == 0 then [""]
    else
      var rest := Split(s[1..], sep);
      if s[0] == sep then [""] + rest
      else [[s[0]] + rest[0]] + rest[1..]
  }

  /** Python's `sep.join(parts)`. */
  function Join(parts: seq<string>, sep: char): string
    requires |parts| >= 1
    decreases |parts|
  {
    if |parts| == 1 then parts[0] else parts[0] + [sep] + Join(parts[1..], sep)
  }

  /** Number of occurrences of `c` in `s`. */
  function Count(s: string, c: char): nat
    decreases |s|
  {
    if |s| == 0 then 0 else (if s[0] == c then 1 else 0) + Count(s[1..], c)
  }

  /** Splitting yields one more piece than there are separators. */
  lemma {:induction false} SplitLength(s: string, sep: char)
    ensures |Split(s, sep)| == Count(s, sep) + 1
    decreases |s|
  {
    if |s| > 0 {
      SplitLength(s[1..], sep);
    }
  }

  /** Prepending a character to the first piece prepends it to the join. */
  lemma {:induction false} JoinConsFirst(c: char, rest: seq<string>, sep: char)
    requires |rest| >= 1
    ensures Join([[c] + rest[0]] + rest[1..], sep) == [c] + Join(rest, sep)
  {
    var parts := [[c] + rest[0]] + rest[1..];
    if |rest| > 1 {
      assert parts[1..] == rest[1..];
    }
  }

  /** Joining the pieces with the separator gives the original string back. */
  lemma {:induction false} JoinSplit(s: string, sep: char)
    ensures Join(Split(s, sep), sep) == s
    decreases |s|
  {
    if |s| > 0 {
      var rest := Split(s[1..], sep);
      JoinSplit(s[1..], sep);
      if s[0] == sep {
        assert ([""] + rest)[1..] == rest;
      } else {
        JoinConsFirst(s[0], rest, sep);
      }
      assert s == [s[0]] + s[1..];
    }
  }

  /** Splitting a separator-free prefix onto a string extends the first piece. */
  lemma {:induction false} SplitPrefix(p: string, x: string, sep: char)
    requires sep !in p
    ensures Split(p + x, sep) == [p + Split(x, sep)[0]] + Split(x, sep)[1..]
    decreases |p|
  {
    if |p| == 0 {
      assert p + x == x;
      assert p + Split(x, sep)[0] == Split(x, sep)[0];
      assert Split(x, sep) == [Split(x, sep)[0]] + Split(x, sep)[1..];
    } else {
      assert (p + x)[0] == p[0] && (p + x)[1..] == p[1..] + x;
      assert sep !in p[1..];
      SplitPrefix(p[1..], x, sep);
      assert [p[0]] + (p[1..] + Split(x, sep)[0]) == p + Split(x, sep)[0];
    }
  }

  /** Splitting a join of separator-free pieces gives the pieces back. */
  lemma {:induction false} SplitJoin(parts: seq<string>, sep: char)
    requires |parts| >= 1
    requires forall i :: 0 <= i < |parts| ==> sep !in parts[i]
    ensures Split(Join(parts, sep), sep) == parts
    decreases |parts|
  {
    if |parts| == 1 {
      SplitPrefix(parts[0], "", sep);
      assert parts[0] + "" == parts[0];
    } else {
      var tail := Join(parts[1..], sep);
      SplitJoin(parts[1..], sep);
      assert Join(parts, sep) == parts[0] + ([sep] + tail);
      SplitPrefix(parts[0], [sep] + tail, sep);
      assert ([sep] + tail)[1..] == tail;
      assert Split([sep] + tail, sep) == [""] + parts[1..];
      assert parts[0] + "" == parts[0];
    }
  }
}

=== FILE: strings.dfy ===
/** Python string primitives the preview code relies on: `p in s` and `s.replace(p, r)`. */
module Strings {

  /** `p` is a prefix of `s`. */
  predicate IsPrefix(p: string, s: string) {
    |p| <= |s| && s[..|p|] == p
  }

  /** Python's `p in s`: `p` occurs somewhere in `s`. */
  predicate Occurs(s: string, p: string)
    decreases |s|
  {
    IsPrefix(p, s) || (|s| > 0 && Occurs(s[1..], p))
  }

  /** The character `c` appears nowhere in `s`. */
  predicate Lacks(s: string, c: char) {
    forall i :: 0 <= i < |s| ==> s[i] != c
  }

  /** Python's `s.replace(pat, rep)` for a non-empty `pat`: scan from the left, replace every
      occurrence that starts where the scan stands, and resume right after it, so occurrences
      that overlap an earlier replaced one are left alone. */
  function ReplaceAll(s: string, pat: string, rep: string): (r: string)
    requires |pat| > 0
    ensures Lacks(s, pat[0]) ==> r == s
    ensures |rep| == |pat| ==> |r| == |s|
    decreases |s|
  {
    if |s| == 0 then ""
    else if IsPrefix(pat, s) then rep + ReplaceAll(s[|pat|..], pat, rep)
    else [s[0]] + ReplaceAll(s[1..], pat, rep)
  }

  /** An occurrence inside a suffix is an occurrence in the whole string. */
  lemma {:induction false} OccursInSuffix(s: string, k: nat, p: string)
    requires k <= |s|
    ensures Occurs(s[k..], p) ==> Occurs(s, p)
    decreases k
  {
    if k > 0 {
      assert s[1..][k - 1..] == s[k..];
      OccursInSuffix(s[1..], k - 1, p);
    }
  }

  /** A string without the pattern's first character cannot contain the pattern. */
  lemma {:induction false} LacksFirstNotOccurs(s: string, p: string)
    requires |p| > 0 && Lacks(s, p[0])
    ensures !Occurs(s, p)
    decreases |s|
  {
    if |s| > 0 {
      LacksFirstNotOccurs(s[1..], p);
    }
  }

  /** A prefix that cannot start an occurrence can be skipped when looking for one. */
  lemma {:induction false} OccursPastPrefix(v: string, w: string, p: string)
    requires |p| > 0 && Lacks(v, p[0])
    ensures Occurs(v + w, p) ==> Occurs(w, p)
    decreases |v|
  {
    if |v| == 0 {
      assert v + w == w;
    } else {
      assert (v + w)[1..] == v[1..] + w;
      OccursPastPrefix(v[1..], w, p);
    }
  }

  /** Replacing a pattern that does not occur returns the string unchanged. */
  lemma {:induction false} ReplaceAbsent(s: string, pat: string, rep: string)
    requires |pat| > 0 && !Occurs(s, pat)
    ensures ReplaceAll(s, pat, rep) == s
    decreases |s|
  {
    if |s| > 0 {
      ReplaceAbsent(s[1..], pat, rep);
      assert [s[0]] + s[1..] == s;
    }
  }

  /** If the pattern occurs, the replacement shows up in the result. */
  lemma {:induction false} ReplaceInserts(s: string, pat: string, rep: string)
    requires |pat| > 0 && Occurs(s, pat)
    ensures Occurs(ReplaceAll(s, pat, rep), rep)
    decreases |s|
  {
    var r := ReplaceAll(s, pat, rep);
    if IsPrefix(pat, s) {
      assert r[..|rep|] == rep;
    } else {
      ReplaceInserts(s[1..], pat, rep);
      assert r[1..] == ReplaceAll(s[1..], pat, rep);
    }
  }

  /** A prefix of `s` free of the pattern's first character survives replacement verbatim. */
  lemma {:induction false} ReplaceKeepsPrefix(s: string, pat: string, rep: string, n: nat)
    requires |pat| > 0 && n <= |s| && Lacks(s[..n], pat[0])
    ensures IsPrefix(s[..n], ReplaceAll(s, pat, rep))
    decreases n
  {
    if n > 0 {
      assert s[0] == s[..n][0];
      assert s[1..][..n - 1] == s[1..n];
      assert forall i :: 0 <= i < n - 1 ==> s[1..n][i] == s[..n][i + 1];
      ReplaceKeepsPrefix(s[1..], pat, rep, n - 1);
      assert s[..n] == [s[0]] + s[1..n];
    }
  }

  /** No occurrence of `pat` in `x + y` starts inside `x` and ends inside `y`. */
  predicate NoStraddle(x: string, y: string, pat: string) {
    forall i :: 0 <= i < |x| < i + |pat| ==> !IsPrefix(pat, (x + y)[i..])
  }

  lemma NoStraddleShift(x: string, y: string, pat: string, k: nat)
    requires k <= |x| && NoStraddle(x, y, pat)
    ensures NoStraddle(x[k..], y, pat)
  {
    forall i | 0 <= i < |x| - k < i + |pat|
      ensures !IsPrefix(pat, (x[k..] + y)[i..])
    {
      assert (x[k..] + y)[i..] == (x + y)[i + k..];
    }
  }

  /** `x + y` starts with the pattern exactly when `x` does, if the pattern fits in `x`. */
  lemma PrefixOfAppend(x: string, y: string, pat: string)
    requires |pat| <= |x|
    ensures IsPrefix(pat, x + y) <==> IsPrefix(pat, x)
  {
    assert (x + y)[..|pat|] == x[..|pat|];
  }

  lemma TailOfAppend(x: string, y: string)
    requires |x| > 0
    ensures (x + y)[0] == x[0] && (x + y)[1..] == x[1..] + y
  {
  }

  lemma AppendAssoc(a: string, b: string, c: string)
    ensures a + (b + c) == (a + b) + c
  {
  }

  /** One step of the scan where the pattern does not start the string. */
  lemma ReplaceSkipUnfold(s: string, pat: string, rep: string)
    requires |pat| > 0 && |s| > 0 && !IsPrefix(pat, s)
    ensures ReplaceAll(s, pat, rep) == [s[0]] + ReplaceAll(s[1..], pat, rep)
  {
  }

  /** One step of the scan where the pattern starts the string. */
  lemma ReplaceMatchUnfold(s: string, pat: string, rep: string)
    requires |pat| > 0 && IsPrefix(pat, s)
    ensures ReplaceAll(s, pat, rep) == rep + ReplaceAll(s[|pat|..], pat, rep)
  {
  }

  /** The inductive step of `ReplaceAppend` when the pattern starts `x`. */
  lemma ReplaceAppendMatch(x: string, y: string, pat: string, rep: string)
    requires |pat| > 0 && IsPrefix(pat, x)
    requires ReplaceAll(x[|pat|..] + y, pat, rep) == ReplaceAll(x[|pat|..], pat, rep) + ReplaceAll(y, pat, rep)
    ensures ReplaceAll(x + y, pat, rep) == ReplaceAll(x, pat, rep) + ReplaceAll(y, pat, rep)
  {
    var t := x[|pat|..];
    PrefixOfAppend(x, y, pat);
    assert (x + y)[|pat|..] == t + y;
    ReplaceMatchUnfold(x + y, pat, rep);
    ReplaceMatchUnfold(x, pat, rep);
    var a, b := ReplaceAll(t, pat, rep), ReplaceAll(y, pat, rep);
    AppendAssoc(rep, a, b);
  }

  /** The inductive step of `ReplaceAppend` when the pattern neither starts `x` nor straddles. */
  lemma ReplaceAppendSkip(x: string, y: string, pat: string, rep: string)
    requires |pat| > 0 && |x| > 0 && !IsPrefix(pat, x)
    requires |pat| > |x| ==> !IsPrefix(pat, x + y)
    requires ReplaceAll(x[1..] + y, pat, rep) == ReplaceAll(x[1..], pat, rep) + ReplaceAll(y, pat, rep)
    ensures ReplaceAll(x + y, pat, rep) == ReplaceAll(x, pat, rep) + ReplaceAll(y, pat, rep)
  {
    var t := x[1..];
    if |pat| <= |x| {
      PrefixOfAppend(x, y, pat);
    }
    TailOfAppend(x, y);
    ReplaceSkipUnfold(x + y, pat, rep);
    ReplaceSkipUnfold(x, pat, rep);
    var a, b := ReplaceAll(t, pat, rep), ReplaceAll(y, pat, rep);
    AppendAssoc([x[0]], a, b);
  }

  /** Replacement distributes over a concatenation that no occurrence straddles. */
  lemma {:induction false} ReplaceAppend(x: string, y: string, pat: string, rep: string)
    requires |pat| > 0 && NoStraddle(x, y, pat)
    ensures ReplaceAll(x + y, pat, rep) == ReplaceAll(x, pat, rep) + ReplaceAll(y, pat, rep)
    decreases |x|
  {
    if |x| == 0 {
      assert x + y == y;
    } else if IsPrefix(pat, x) {
      NoStraddleShift(x, y, pat, |pat|);
      ReplaceAppend(x[|pat|..], y, pat, rep);
      ReplaceAppendMatch(x, y, pat, rep);
    } else {
      NoStraddleShift(x, y, pat, 1);
      ReplaceAppend(x[1..], y, pat, rep);
      assert |pat| > |x| ==> !IsPrefix(pat, (x + y)[0..]);
      assert (x + y)[0..] == x + y;
      ReplaceAppendSkip(x, y, pat, rep);
    }
  }
}

=== FILE: substitution.dfy ===
/** The placeholder substitution shared by both preview builders and both info renderers:
    for each `(KEY, value)` pair in order, every `{KEY}` in the text is replaced by `value`. */
module Substitution {
  import opened Strings

  /** An ordered list of placeholder names and their values (a Python dict in insertion order). */
  type Replacements = seq<(string, string)>

  /** The text contains neither `{` nor `}`. */
  predicate NoBraces(s: string) {
    Lacks(s, '{') && Lacks(s, '}')
  }

  /** Characters that can appear in a placeholder name. */
  predicate KeyChar(c: char) {
    'A' <= c <= 'Z' || c == '_'
  }

  /** A placeholder name: non-empty, upper-case letters and underscores only. */
  predicate KeyName(k: string) {
    |k| > 0 && forall i :: 0 <= i < |k| ==> KeyChar(k[i])
  }

  /** The placeholder spelling of a key: `{KEY}`. */
  function Token(key: string): string {
    "{" + key + "}"
  }

  /** Every key is a placeholder name and every value is free of braces. */
  predicate Plain(m: Replacements) {
    forall i :: 0 <= i < |m| ==> KeyName(m[i].0) && NoBraces(m[i].1)
  }

  /** No key before position `j` equals the key at `j`, so `{m[j].0}` is replaced by `m[j].1`. */
  predicate FirstKeyAt(m: Replacements, j: int) {
    0 <= j < |m| && forall i :: 0 <= i < j ==> m[i].0 != m[j].0
  }

  /** Pairs each key with the value at the same position, in order. */
  function Zip(keys: seq<string>, values: seq<string>): (m: Replacements)
    requires |keys| == |values|
    ensures |m| == |keys|
    ensures forall i :: 0 <= i < |m| ==> m[i] == (keys[i], values[i])
  {
    seq(|keys|, i requires 0 <= i < |keys| => (keys[i], values[i]))
  }

  /** The substitution loop: for each pair in order, every `{key}` is replaced by its value.
      A text without `{` comes back unchanged. */
  function Substitute(s: string, m: Replacements): (r: string)
    ensures Lacks(s, '{') ==> r == s
    decreases |m|
  {
    if |m| == 0 then s
    else Substitute(ReplaceAll(s, Token(m[0].0), m[0].1), m[1..])
  }

  /** Reading `s` in a state where a group is `open` or not. A `{` followed by a placeholder
      character opens a group (a placeholder, or shell text such as `${VAR}`), and no brace may
      appear in it before its `}`. A `{` followed by any other character except `{` is plain
      text, as in a shell block `f() { ...; }`, `awk '{print $1}'` or fzf's field placeholder
      `{}`, and so is a `}` outside a group. At the end no group is open. */
  predicate Paired(s: string, open: bool)
    decreases |s|
  {
    if |s| == 0 then !open
    else if open then s[0] != '{' && Paired(s[1..], s[0] != '}')
    else if s[0] == '{' then |s| >= 2 && s[1] != '{' && Paired(s[1..], KeyChar(s[1]))
    else Paired(s[1..], false)
  }

  /** fzf's field placeholder `{}` is plain text, also right after a placeholder. */
  lemma FieldPlaceholderPaired()
    ensures Paired("{}", false)
    ensures Paired("{PREFIX}{}", false)
  {
    assert "{}"[1..] == "}" && "}"[1..] == "";
    PairedToken("PREFIX", "{}");
    assert Token("PREFIX") + "{}" == "{PREFIX}{}";
  }

  /** The reading state after the first character of `s`. */
  function After(s: string, open: bool): bool
    requires |s| > 0
  {
    if s[0] == '{' then |s| >= 2 && KeyChar(s[1])
    else if s[0] == '}' then false
    else open
  }

  /** Position of the `}` that closes the group open at the start of `t`. */
  function CloseIndex(t: string): (n: nat)
    requires Paired(t, true)
    ensures n < |t| && t[n] == '}'
    ensures forall i :: 0 <= i < n ==> t[i] != '{' && t[i] != '}'
    decreases |t|
  {
    if t[0] == '}' then 0 else 1 + CloseIndex(t[1..])
  }

  /** A `{` in a paired text is followed by a character that is not `{`. */
  lemma {:induction false} BraceFollowed(x: string, open: bool, i: nat)
    requires Paired(x, open) && i < |x| && x[i] == '{'
    ensures i + 1 < |x| && x[i + 1] != '{'
    decreases i
  {
    if i > 0 {
      BraceFollowed(x[1..], After(x, open), i - 1);
    }
  }

  /** Position of the `}` that closes the group opened at position `i` of a paired text. */
  function CloserOf(x: string, open: bool, i: nat): (j: nat)
    requires Paired(x, open) && i + 1 < |x| && x[i] == '{' && KeyChar(x[i + 1])
    ensures i < j < |x| && x[j] == '}'
    decreases i
  {
    if i == 0 then 1 + CloseIndex(x[1..])
    else 1 + CloserOf(x[1..], After(x, open), i - 1)
  }

  lemma {:induction false} PairedSkip(v: string, w: string, open: bool)
    requires NoBraces(v)
    ensures Paired(v + w, open) <==> Paired(w, open)
    decreases |v|
  {
    if |v| > 0 {
      assert (v + w)[0] == v[0];
      assert (v + w)[1..] == v[1..] + w;
      PairedSkip(v[1..], w, open);
    } else {
      assert v + w == w;
    }
  }

  lemma PairedToken(key: string, rest: string)
    requires KeyName(key)
    ensures Paired(Token(key) + rest, false) <==> Paired(rest, false)
  {
    var s := Token(key) + rest;
    assert s[0] == '{' && s[1] == key[0];
    assert s[1..] == key + ("}" + rest);
    PairedSkip(key, "}" + rest, true);
    assert ("}" + rest)[1..] == rest;
  }

  lemma TokenPaired(key: string)
    requires KeyName(key)
    ensures Paired(Token(key), false)
  {
    PairedToken(key, "");
    assert Token(key) + "" == Token(key);
  }

  /** Replacement keeps the first character of a text that does not start with `{`. */
  lemma ReplaceKeepsHead(t: string, key: string, v: string)
    requires |t| > 0 && t[0] != '{'
    ensures var r := ReplaceAll(t, Token(key), v); |r| > 0 && r[0] == t[0]
  {
    var pat := Token(key);
    if |pat| <= |t| {
      assert t[..|pat|][0] == t[0] != pat[0];
    }
  }

  /** Replacing `{key}` by a brace-free value keeps a text paired. */
  lemma {:induction false} ReplaceKeepsPaired(s: string, open: bool, key: string, v: string)
    requires KeyName(key) && NoBraces(v) && Paired(s, open)
    ensures Paired(ReplaceAll(s, Token(key), v), open)
    decreases |s|
  {
    var pat := Token(key);
    if |s| > 0 {
      if IsPrefix(pat, s) {
        var rest := s[|pat|..];
        assert s == pat + rest;
        PairedToken(key, rest);
        ReplaceKeepsPaired(rest, false, key, v);
        PairedSkip(v, ReplaceAll(rest, pat, v), false);
      } else {
        ReplaceKeepsPaired(s[1..], After(s, open), key, v);
        var r := ReplaceAll(s, pat, v);
        assert r[0] == s[0] && r[1..] == ReplaceAll(s[1..], pat, v);
        if s[0] == '{' {
          ReplaceKeepsHead(s[1..], key, v);
        }
      }
    }
  }

  /** After an open `{`, a brace-free key followed by `}` can only be read in the replaced text
      if it was already there before replacement. */
  lemma TokenAfterOpenBrace(t: string, key: string, v: string, other: string)
    requires KeyName(key) && KeyName(other) && Paired(t, true)
    ensures IsPrefix(Token(other), "{" + ReplaceAll(t, Token(key), v))
        ==> IsPrefix(Token(other), "{" + t)
  {
    var q := Token(other);
    var r := ReplaceAll(t, Token(key), v);
    var n := CloseIndex(t);
    ReplaceKeepsPrefix(t, Token(key), v, n + 1);
    if IsPrefix(q, "{" + r) {
      var m := |other|;
      assert forall i :: 0 <= i < m ==> r[i] == q[i + 1] == other[i];
      assert r[m] == q[m + 1] == '}';
      assert forall i :: 0 <= i < n ==> r[i] == t[i];
      assert r[n] == t[n];
      assert n == m;
      assert t[..n + 1] == r[..n + 1] == other + "}";
      assert ("{" + t)[..|q|] == "{" + t[..n + 1];
    }
  }

  /** One replacement step with a brace-free value leaves no `{key}` behind and creates no
      `{other}` that was absent, provided the text is paired. */
  lemma {:induction false} ReplaceLeavesNoToken(s: string, open: bool, key: string, v: string, other: string)
    requires KeyName(key) && NoBraces(v) && KeyName(other) && Paired(s, open)
    requires other == key || !Occurs(s, Token(other))
    ensures !Occurs(ReplaceAll(s, Token(key), v), Token(other))
    decreases |s|
  {
    var pat := Token(key);
    var q := Token(other);
    var r := ReplaceAll(s, pat, v);
    if |s| == 0 {
      assert !IsPrefix(q, r);
    } else if IsPrefix(pat, s) {
      var rest := s[|pat|..];
      assert s == pat + rest;
      PairedToken(key, rest);
      OccursInSuffix(s, |pat|, q);
      ReplaceLeavesNoToken(rest, false, key, v, other);
      OccursPastPrefix(v, ReplaceAll(rest, pat, v), q);
    } else {
      var t := s[1..];
      OccursInSuffix(s, 1, q);
      ReplaceLeavesNoToken(t, After(s, open), key, v, other);
      var rt := ReplaceAll(t, pat, v);
      assert r == [s[0]] + rt;
      assert r[1..] == rt;
      if s[0] == '{' {
        if KeyChar(s[1]) {
          TokenAfterOpenBrace(t, key, v, other);
          assert r == "{" + rt;
          assert s == "{" + t;
          assert !IsPrefix(q, s);
        } else {
          ReplaceKeepsHead(t, key, v);
          assert q[1] == other[0];
          assert r[1] == s[1];
        }
      } else {
        assert q[0] == '{' && r[0] == s[0];
      }
      assert !IsPrefix(q, r);
    }
  }

  /** A template with none of the mapped placeholders comes back unchanged. */
  lemma {:induction false} SubstituteAbsent(s: string, m: Replacements)
    requires forall i :: 0 <= i < |m| ==> !Occurs(s, Token(m[i].0))
    ensures Substitute(s, m) == s
    decreases |m|
  {
    if |m| > 0 {
      ReplaceAbsent(s, Token(m[0].0), m[0].1);
      SubstituteAbsent(s, m[1..]);
    }
  }

  lemma {:induction false} SubstituteClearsFrom(s: string, done: seq<string>, m: Replacements)
    requires Paired(s, false) && Plain(m)
    requires forall k :: k in done ==> KeyName(k) && !Occurs(s, Token(k))
    ensures Paired(Substitute(s, m), false)
    ensures forall k :: k in done ==> !Occurs(Substitute(s, m), Token(k))
    ensures forall i :: 0 <= i < |m| ==> !Occurs(Substitute(s, m), Token(m[i].0))
    decreases |m|
  {
    if |m| > 0 {
      var key, v := m[0].0, m[0].1;
      var s' := ReplaceAll(s, Token(key), v);
      ReplaceKeepsPaired(s, false, key, v);
      forall d | d in done
        ensures !Occurs(s', Token(d))
      {
        ReplaceLeavesNoToken(s, false, key, v, d);
      }
      ReplaceLeavesNoToken(s, false, key, v, key);
      SubstituteClearsFrom(s', done + [key], m[1..]);
      forall i | 0 <= i < |m|
        ensures !Occurs(Substitute(s, m), Token(m[i].0))
      {
        if i == 0 {
          assert m[i].0 in done + [key];
        } else {
          assert m[i] == m[1..][i - 1];
        }
      }
    }
  }

  /** With a paired template and brace-free keys and values, no mapped placeholder survives. */
  lemma SubstituteClears(s: string, m: Replacements)
    requires Paired(s, false) && Plain(m)
    ensures forall i :: 0 <= i < |m| ==> !Occurs(Substitute(s, m), Token(m[i].0))
  {
    SubstituteClearsFrom(s, [], m);
  }

  lemma PairedNoStraddle(x: string, y: string, key: string)
    requires KeyName(key) && Paired(x, false)
    ensures NoStraddle(x, y, Token(key))
  {
    var pat := Token(key);
    forall i | 0 <= i < |x| < i + |pat|
      ensures !IsPrefix(pat, (x + y)[i..])
    {
      if x[i] == '{' {
        BraceFollowed(x, false, i);
        if KeyChar(x[i + 1]) {
          var j := CloserOf(x, false, i);
          assert 0 < j - i < |pat| - 1;
          assert pat[j - i] == key[j - i - 1];
          assert (x + y)[i..][j - i] == x[j];
        } else {
          assert pat[1] == key[0];
          assert (x + y)[i..][1] == x[i + 1];
        }
      } else {
        assert (x + y)[i..][0] == x[i];
      }
    }
  }

  /** Substitution distributes over a concatenation whose left part is paired, when the keys
      are placeholder names and the values contain no braces. */
  lemma {:induction false} SubstituteAppend(x: string, y: string, m: Replacements)
    requires Paired(x, false) && Plain(m)
    ensures Substitute(x + y, m) == Substitute(x, m) + Substitute(y, m)
    decreases |m|
  {
    if |m| > 0 {
      var key, v := m[0].0, m[0].1;
      PairedNoStraddle(x, y, key);
      ReplaceAppend(x, y, Token(key), v);
      ReplaceKeepsPaired(x, false, key, v);
      SubstituteAppend(ReplaceAll(x, Token(key), v), ReplaceAll(y, Token(key), v), m[1..]);
    }
  }

  lemma KeyNameNoBraces(k: string)
    requires KeyName(k)
    ensures NoBraces(k)
  {
  }

  /** Distinct brace-free keys have placeholders that do not occur in each other. */
  lemma TokenNotInToken(a: string, b: string)
    requires NoBraces(a) && NoBraces(b) && a != b
    ensures !Occurs(Token(a), Token(b))
  {
    var ta, tb := Token(a), Token(b);
    assert ta[1..] == a + "}";
    LacksFirstNotOccurs(ta[1..], tb);
    if |b| < |a| {
      assert ta[|b| + 1] == a[|b|];
      assert tb[|b| + 1] == '}';
    } else if |b| == |a| {
      assert ta[1..|a| + 1] == a;
      assert tb[1..|b| + 1] == b;
    }
  }

  /** The placeholder alone renders to its value. */
  lemma {:induction false} SubstituteToken(m: Replacements, j: int)
    requires Plain(m) && FirstKeyAt(m, j)
    ensures Substitute(Token(m[j].0), m) == m[j].1
    decreases |m|
  {
    var key, v := m[0].0, m[0].1;
    var rest := m[1..];
    if j == 0 {
      var t := Token(key);
      assert t[..|t|] == t && t[|t|..] == "";
      assert ReplaceAll(t, t, v) == v + "";
      assert v + "" == v;
      forall i | 0 <= i < |rest|
        ensures !Occurs(v, Token(rest[i].0))
      {
        LacksFirstNotOccurs(v, Token(rest[i].0));
      }
      SubstituteAbsent(v, rest);
    } else {
      KeyNameNoBraces(m[j].0);
      KeyNameNoBraces(key);
      TokenNotInToken(m[j].0, key);
      ReplaceAbsent(Token(m[j].0), Token(key), v);
      assert m[j] == rest[j - 1];
      SubstituteToken(rest, j - 1);
    }
  }

  /** A placeholder preceded by paired text renders in place: the text around it is substituted
      on its own and the placeholder becomes its value. */
  lemma SubstituteAt(a: string, b: string, m: Replacements, j: int)
    requires Paired(a, false) && Plain(m) && FirstKeyAt(m, j)
    ensures Substitute(a + Token(m[j].0) + b, m) == Substitute(a, m) + m[j].1 + Substitute(b, m)
  {
    var t := Token(m[j].0);
    assert a + t + b == a + (t + b);
    SubstituteAppend(a, t + b, m);
    TokenPaired(m[j].0);
    SubstituteAppend(t, b, m);
    SubstituteToken(m, j);
  }

  /** Without pairing (here a `{` directly followed by `{`), sequential replacement can
      assemble a new placeholder out of the text around a removed one. */
  lemma ReassembledToken()
    ensures Substitute("{{A}A}", [("A", "")]) == "{A}"
  {
    var s, t, p := "{{A}A}", "{A}A}", Token("A");
    assert p == "{A}";
    assert s[1] == '{';
    assert !IsPrefix(p, s);
    assert s[0] == '{' && s[1..] == t;
    ReplaceSkipUnfold(s, p, "");
    assert t[..3] == p;
    ReplaceMatchUnfold(t, p, "");
    assert t[3..] == "A}";
    assert Lacks("A}", '{');
    assert ['{'] + ("" + "A}") == "{A}";
  }

  /** A value that spells a later key's placeholder is itself substituted. */
  lemma ValueReexpanded()
    ensures Substitute("{T}", [("T", "{S}"), ("S", "x")]) == "x"
  {
    assert IsPrefix("{T}", "{T}") && "{T}"[3..] == "";
    assert ReplaceAll("{T}", "{T}", "{S}") == "{S}";
    assert IsPrefix("{S}", "{S}") && "{S}"[3..] == "";
    assert ReplaceAll("{S}", "{S}", "x") == "x";
  }
}
